=== FILE: README.md ===
# Complaint workflow: a Dafny model

This project models the complaint workflow of a product-complaint system.
Outlets file complaints about bottled products. Sales representatives, the
finished-goods warehouse, the QC lab, finance and the administrator then
move each complaint through a fixed sequence of statuses. Every move is
written to an audit history. The model covers:

- The server's complaint endpoints:
  - the access gate in front of them;
  - filing a complaint, which assigns a `CMP-NNNNNN` code, sets status
    *Pending Validation* and writes the creation history entry;
  - the role-gated status update, which writes one history entry;
  - the role-filtered listing;
  - the single-complaint read;
  - the login handler.
- The administrator's client-side list editors: user edit, save and cancel,
  and issue-type add and delete.
- The new-complaint form's validation schema.

The database is abstract state (`ComplaintStore.Store`):

- the `complaints` table is a map from serial id to row;
- the `complaint_history` table is an append-only sequence;
- a serial counter holds the next id;
- a set holds the table's column names.

Each endpoint is a pure function from the store and the request to the new
store and an `Outcome`. The outcome is a value or a failure kind, and
`Common.HttpCode` gives the failure's status code. Request bodies are maps
from field name to a JSON `Value`. JavaScript truthiness is `Common.Truthy`.

Module layout, following the program:

| module | file | models |
|---|---|---|
| `Common` | common.dfy | JSON values, truthiness, failures and HTTP codes |
| `Decimal` | decimal.dfy | `String(n)`, digit parsing, `padStart` |
| `Strings` | strings.dfy | `split(' ')`, `trim()` |
| `Sorting` | sorting.dfy | `ORDER BY` as a stable sort on a key |
| `Policy` | policy.dfy | roles, statuses, the transition table |
| `Gate` | gate.dfy | the authentication middleware |
| `ComplaintCodes` | codes.dfy | complaint code format |
| `ComplaintStore` | store.dfy | store, history trails, store invariants |
| `Workflow` | workflow.dfy | create, update-status, list, get handlers |
| `Lifecycle` | lifecycle.dfy | invariants over any run of requests |
| `Login` | login.dfy | the login handler |
| `AdminLists` | admin.dfy | admin user and issue-type editors |
| `ComplaintForm` | complaint_form.dfy | the new-complaint form schema |

Two features of the code shape the model:

- The create endpoint admits the `Outlet` role only (backend/server.js:86).
- The update endpoint does not check the complaint's current status. The
  transition table gates by role alone
  (`Lifecycle.DecisionIgnoresCurrentStatus`).

## Model

| member | source | states |
|---|---|---|
| `Gate.BearerToken` | backend/server.js:38-39 | a token, when there is one, is non-empty and free of spaces; a header without a space has none |
| `Gate.WellFormedHeader` | backend/server.js:38 | the token is the second space-separated word: a `scheme token` header, with or without further space-separated words, yields exactly `token` |
| `Gate.EmptySecondWord` | backend/server.js:38-39 | a header whose first space is followed by nothing or by another space, such as `"Bearer "` or `"Bearer  tok"`, has no token, so the gate answers 401 |
| `Gate.Authorize` | backend/server.js:33-52 | no header or no token gives 401; an unverifiable token gives 400; a verified user whose role is outside a non-empty role list gives 403; otherwise the decoded user passes; each verdict holds exactly when its condition holds |
| `Gate.OpenEndpointAdmitsAnyUser` | backend/server.js:44 | an empty role list admits every user whose token verifies |
| `Policy.MaySetExactly` | backend/server.js:169-177 | the policy permits exactly the seven listed role/status pairs and nothing else |
| `Policy.UnlistedRolesSetNothing` | backend/server.js:177 | Outlet, EXCO and every role without a table entry can set no status |
| `Policy.FalsyStatusRefused` | backend/server.js:177 | an absent, null or empty status is refused for every role |
| `Policy.OwnerIsUnique` | backend/server.js:169-175 | no status can be set by two different roles |
| `Policy.NoReturnToPending` | backend/server.js:169-175 | no role can put a complaint back to Pending Validation |
| `Decimal.NatToString` | backend/server.js:94 | `String(n)` is a non-empty digit string with no leading zero except for 0 itself |
| `Decimal.PadStart` | backend/server.js:94 | padding leaves long strings alone and otherwise fills on the left to exactly the width, keeping the string as the suffix |
| `Decimal.ParseNatToString` | backend/server.js:94 | reading `String(n)` back gives `n` |
| `Decimal.NatToStringInjective` | backend/server.js:94 | different numbers have different decimal strings |
| `Decimal.ZeroPaddingValue` | backend/server.js:94 | leading zeros do not change a numeral's value |
| `Decimal.ParsePadded` | backend/server.js:94 | a zero-padded numeral reads back as the same number |
| `Decimal.NatToStringLength` | backend/server.js:94 | a numeral has at most k digits exactly when the number is below 10^k |
| `Decimal.IntToString` | backend/server.js:62 | the decimal text of an integer reads back as n: the digits of a non-negative number, or a minus sign followed by the digits of its magnitude |
| `Decimal.IntToStringInjective` | backend/server.js:62 | distinct integers have distinct numerals |
| `ComplaintCodes.FormatCode` | backend/server.js:94 | a code starts with `CMP-` followed by digits, and is ten characters long while the number is below one million |
| `ComplaintCodes.ParseFormatCode` | backend/server.js:94 | the sequence number can be read back from the code |
| `ComplaintCodes.FormatCodeInjective` | backend/server.js:94 | distinct numbers give distinct codes |
| `ComplaintCodes.TextOrderBreaksAtOneMillion` | backend/server.js:94 | from one million on, codes outgrow the padding and text order no longer follows number order |
| `Strings.Split` | backend/server.js:38 | `split` always yields at least one part, and no part contains the separator |
| `Strings.JoinSplit` | backend/server.js:38 | joining the parts with the separator gives the original header back |
| `Strings.SplitNoSeparator` | backend/server.js:38-39 | a header without a space splits into itself alone, so it has no token |
| `Strings.SplitAfterWord` | backend/server.js:38 | a space-free word followed by a space is the first part, and the rest of the string splits on its own |
| `Strings.FirstPart` | backend/server.js:38 | the first part runs up to the first separator |
| `Strings.Trim` | src/components/dashboards/AdminDashboard.tsx:101 | `trim()` returns an inner slice whose cut-off ends are whitespace and whose own ends are not |
| `Strings.TrimEmptyIffBlank` | src/components/dashboards/AdminDashboard.tsx:101 | a name trims to empty exactly when it is all whitespace |
| `Sorting.InsertBy` | backend/server.js:131 | inserting into a sorted list keeps it sorted and is a permutation of the list plus the new element |
| `Sorting.SortBy` | backend/server.js:131 | the result is sorted by the key and is a permutation of the input |
| `Sorting.SortByMembers` | backend/server.js:131 | sorting neither adds nor loses rows |
| `Sorting.SortByKeepsDistinct` | backend/server.js:131 | sorting a list with no repeated row gives a list with no repeated row |
| `Sorting.SortByStrictlySorted` | backend/server.js:153 | a list whose keys already increase strictly comes out of the sort unchanged, since without ties the sorted order is unique |
| `Workflow.NewRow` | backend/server.js:88-98 | the new row has status Pending Validation, the given code, the filer as sales rep, the filing time, and every filed body field copied over (absent fields as NULL) |
| `Workflow.FileComplaint` | backend/server.js:89-105 | filing stores the row under the next serial id with code `CMP-` + padded (count + 1), and appends one creation entry with no previous status, Pending Validation and remark "Complaint created." |
| `Workflow.CreateComplaint` | backend/server.js:86-112 | only an Outlet gets through; a refused request leaves the store as it was and carries the gate's failure; an admitted request files the complaint and answers with it |
| `Workflow.ExtraFields` | backend/server.js:165 | the extra fields are exactly the body fields other than status and remarks, with their values |
| `Workflow.RemarksOrDefault` | backend/server.js:202 | truthy remarks are kept; absent or empty remarks become "Status updated to " + status |
| `Workflow.ApplyTransition` | backend/server.js:164-209 | a policy refusal gives 403 and a missing complaint 404, both with no effect; on success the status becomes the target, only the extra-field columns change besides it, no other complaint changes, and exactly one history entry from the old status to the target is appended |
| `Workflow.UpdateStatus` | backend/server.js:163-210 | the endpoint is open to every verified user; gate failures have no effect, otherwise the transition decides |
| `Workflow.RowsBetween` | backend/server.js:134 | the scanned rows are exactly the stored rows with ids in the range, in strictly increasing id order |
| `Workflow.RowsWhere` | backend/server.js:120-129 | a filter of the scanned rows keeps exactly the rows meeting its condition |
| `Workflow.RowsWhereIncreasing` | backend/server.js:120-131 | filtering keeps the rows in increasing id order |
| `Workflow.VisibleRows` | backend/server.js:120-129 | a row is kept exactly when the caller sees all rows or filed it, and the kept rows keep their id order |
| `Workflow.ListComplaints` | backend/server.js:115-140 | Sales Reps and Outlets get exactly the rows whose `sales_rep_id` is their id, and every other role gets every row; each complaint appears once, ordered by `created_at` descending with rows whose `created_at` is NULL ahead of every timestamped row; every listed row is stored, and under the store invariant every visible stored row is listed |
| `Workflow.ListingMembers` | backend/server.js:115-134 | a row is listed exactly when it is stored under an id handed out so far and the caller may see it |
| `Workflow.ListingOrdered` | backend/server.js:131 | the listing is ordered by `created_at` descending, NULL first as PostgreSQL's `DESC` orders it, and holds each complaint id once |
| `Workflow.JoinSorted` | backend/server.js:131 | the rows without a timestamp followed by the timestamped rows sorted newest first are in `DESC NULLS FIRST` order and repeat no id |
| `Workflow.DescNullsFirst` | backend/server.js:131 | splitting the visible rows by NULL `created_at` and sorting the timestamped part yields `DESC` order with each id once |
| `Workflow.GetComplaint` | backend/server.js:143-160 | a missing complaint gives 404; otherwise the row and exactly that complaint's history entries, ordered by `created_at` ascending |
| `Workflow.GetShowsTrail` | backend/server.js:150-157 | when every history entry is stamped after the one before, the history GET returns is the complaint's trail in insertion order, and under the store invariant it opens with creation, chains status to status and ends at the current status |
| `ComplaintStore.Trail` | backend/server.js:153 | a complaint's trail is no longer than the history and holds only that complaint's entries |
| `ComplaintStore.TrailAppend` | backend/server.js:200-203 | appending an entry extends only its own complaint's trail |
| `ComplaintStore.TrailChronological` | backend/server.js:153 | the entries of one complaint taken from a chronological history are chronological and no later than the whole history |
| `ComplaintStore.AddKeepsValid` | backend/server.js:96-105 | adding a row under the next id with its creation entry keeps the store invariant and gives a one-entry trail |
| `ComplaintStore.ReplaceKeepsValid` | backend/server.js:197-203 | replacing a row with an entry chained from its old status keeps the store invariant and extends only that trail |
| `ComplaintStore.CodesDistinct` | backend/server.js:92-94 | under sequential numbering, two complaints never share a code |
| `ComplaintStore.AddKeepsCodesSequential` | backend/server.js:92-98 | filing with number count + 1 keeps the numbering 1..count and exceeds every earlier number |
| `ComplaintStore.ReplaceKeepsCodesSequential` | backend/server.js:197 | an update that keeps the code keeps the numbering |
| `Lifecycle.FileKeepsValid` | backend/server.js:96-105 | filing keeps the invariant, starts a one-entry trail for a new id, and changes no other trail |
| `Lifecycle.TransitionKeepsValid` | backend/server.js:177-203 | every update, accepted or refused, keeps the invariant; only an accepted one grows a trail, by its own entry |
| `Lifecycle.StepPreservesValid` | backend/server.js:86-210 | every request keeps the invariant that each trail opens with creation, chains status to status, and ends at the current status |
| `Lifecycle.ReplayPreservesValid` | backend/server.js:86-210 | any run of requests keeps that invariant |
| `Lifecycle.StepTrail` | backend/server.js:197-203 | one request grows a complaint's trail by one exactly when it is an accepted transition of that complaint |
| `Lifecycle.ReplayTrail` | backend/server.js:197-203 | over any run, a trail grows by exactly the number of accepted transitions of its complaint |
| `Lifecycle.FiledThenTransitioned` | backend/server.js:96-105 | after an Outlet files a complaint and any run of requests follows, the history holds 1 + transitions entries for the complaint, opening with creation, and the status equals the last entry's target |
| `Lifecycle.StepStamps` | backend/server.js:200-203 | a request leaves the history alone or appends exactly one entry stamped with its own time, as both history inserts (this one and the creation entry at line 101) do |
| `Lifecycle.StepChronological` | backend/server.js:200-203 | a request stamped after the whole history keeps it chronological |
| `Lifecycle.ReplayChronological` | backend/server.js:200-203 | a run whose clock advances keeps the history chronological |
| `Lifecycle.FetchShowsStatus` | backend/server.js:143-160 | after an Outlet files a complaint and a run with an advancing clock follows, GET answers for any signed-in reader with a history that is the insertion-ordered trail: 1 + transitions entries, chained from creation to the complaint's current status |
| `Lifecycle.FileKeepsCodesSequential` | backend/server.js:92-98 | filing keeps codes numbered 1..count, and the new code's number exceeds every earlier one |
| `Lifecycle.TransitionKeepsCodesSequential` | backend/server.js:187-197 | an update whose extra fields leave the code column alone keeps the numbering |
| `Lifecycle.StepKeepsCodesSequential` | backend/server.js:86-210 | every request that does not overwrite codes keeps the numbering |
| `Lifecycle.ReplayKeepsCodesSequential` | backend/server.js:86-210 | with no deletions, and no update overwriting a code, codes stay distinct and sequential over any run |
| `Lifecycle.DecisionIgnoresCurrentStatus` | backend/server.js:177 | whether an update is accepted does not depend on the complaint's current status |
| `Login.FindByEmail` | backend/server.js:62-63 | the lookup returns the first user with the email, or none when no user has it |
| `Login.ParamText` | backend/server.js:62 | the lookup parameter is the email's text as the driver sends it: a string as is, a number as `String(n)`, a boolean as `true`/`false` |
| `Login.LogIn` | backend/server.js:57-80 | a falsy email or password gives 400; an email whose text matches no user 404; a known email with a text password that does not match 401; a truthy password that is not text 500, as the hash comparison throws; success answers the signed token with the user's id, name, email and role |
| `Login.WrongPasswordIsNotUnknownUser` | backend/server.js:64-67 | a known email with the wrong password is refused with 401, not 404 |
| `Login.NumericEmailIsItsNumeral` | backend/server.js:62-67 | an email sent as the number n is answered exactly as the numeral of n sent as text |
| `Login.NumberFindsNumeralEmail` | backend/server.js:62-67 | the number 5 finds a user stored with email "5" and reaches the password check: 200 or 401, never 404 |
| `AdminLists.StartEdit` | src/components/dashboards/AdminDashboard.tsx:14-16 | editing starts on a copy of the user and the list is unchanged |
| `AdminLists.ChangeField` | src/components/dashboards/AdminDashboard.tsx:28-35 | the chosen field of the edited copy becomes the new value, every other field and the id are kept, and the list is untouched |
| `AdminLists.ReplaceById` | src/components/dashboards/AdminDashboard.tsx:19 | every user with the edited id is replaced, every other user stays in place, and the length is kept |
| `AdminLists.SaveEdit` | src/components/dashboards/AdminDashboard.tsx:18-22 | saving replaces by id and clears the editing state |
| `AdminLists.CancelEdit` | src/components/dashboards/AdminDashboard.tsx:24-26 | cancelling clears the editing state and leaves the list alone |
| `AdminLists.SaveKeepsIds` | src/components/dashboards/AdminDashboard.tsx:19 | saving keeps every position's id |
| `AdminLists.SaveIdempotent` | src/components/dashboards/AdminDashboard.tsx:19 | saving the same record twice equals saving it once |
| `AdminLists.SaveUnknownIdNoChange` | src/components/dashboards/AdminDashboard.tsx:19 | saving a record whose id is not in the list changes nothing |
| `AdminLists.RemoveId` | src/components/dashboards/AdminDashboard.tsx:111 | delete keeps exactly the entries with other ids, no entry of the result has the deleted id, and the result is never longer |
| `AdminLists.RemoveIdCounts` | src/components/dashboards/AdminDashboard.tsx:111 | delete keeps each entry with another id exactly as often as it occurred and no entry with the deleted id, so the result is a sub-multiset of the input |
| `AdminLists.RemoveIdConcat` | src/components/dashboards/AdminDashboard.tsx:111 | delete works piecewise, so the kept entries keep their relative order |
| `AdminLists.RemoveIdIdempotent` | src/components/dashboards/AdminDashboard.tsx:111 | deleting the same id twice equals deleting it once |
| `AdminLists.DeleteIssueType` | src/components/dashboards/AdminDashboard.tsx:110-113 | delete filters the list and leaves the add form alone |
| `AdminLists.AddAsWritten` | src/components/dashboards/AdminDashboard.tsx:100-108 | a name blank after trimming changes nothing; otherwise the draft is appended with id String(length + 1), the old list is a prefix and the form is cleared |
| `AdminLists.AsWrittenIdCollides` | src/components/dashboards/AdminDashboard.tsx:105 | after adding two types and deleting the first, the next add repeats the id of the survivor |
| `AdminLists.MaxNumericId` | src/components/dashboards/AdminDashboard.tsx:105 | no numeric id in the list exceeds the maximum |
| `AdminLists.FreshId` | src/components/dashboards/AdminDashboard.tsx:105 | the corrected id differs from every id in the list |
| `AdminLists.AddIssueType` | src/components/dashboards/AdminDashboard.tsx:100-108 | the corrected add keeps the blank-name guard, the prefix and the form reset, and gives the new entry an id no entry has |
| `AdminLists.MaxOfNumbered` | src/components/dashboards/AdminDashboard.tsx:105 | a list numbered "1".."n" in order has maximum id n |
| `AdminLists.MaxBound` | src/components/dashboards/AdminDashboard.tsx:105 | no id reading above b means the maximum is at most b |
| `AdminLists.AddAgreesWithoutDeletes` | src/components/dashboards/AdminDashboard.tsx:105 | while nothing has been deleted, the corrected add gives the same result as the original |
| `ComplaintForm.RequiredText` | src/pages/NewComplaint.tsx:15-18 | a required text field raises no issue exactly when it is present and non-empty |
| `ComplaintForm.Validate` | src/pages/NewComplaint.tsx:14-21 | fewer than three photos and a quantity below 1 each raise their message |
| `ComplaintForm.ValidIff` | src/pages/NewComplaint.tsx:14-21 | the form is valid exactly when batch number, bottle type and issue type are non-empty, quantity is at least 1 and at least three photos are attached |
| `ComplaintForm.DescriptionIrrelevant` | src/pages/NewComplaint.tsx:20 | the description, absent or any text, never changes the result |
| `ComplaintForm.PhotoBoundary` | src/pages/NewComplaint.tsx:19 | zero to two photos are refused whatever else holds; exactly three pass when the rest is filled |
| `ComplaintForm.QuantityBoundary` | src/pages/NewComplaint.tsx:17 | a quantity of 0 or less is refused whatever else holds; 1 passes when the rest is filled |

## Left out

- The PostgreSQL pool, Express routing, body parsing, CORS and environment loading (backend/server.js:1-30, 234-237). These are I/O plumbing; the store is abstract state.
- Token verification, signing and expiry. They are the parameters `decode` and `sign`. Password hashing is the parameter `matches`. All are cryptographic libraries.
- The clock. Timestamps are the `now` parameter of each handler.
- Concurrency. Each handler is atomic, so the race between counting and inserting, and the pair of non-transactional writes, are not modelled.
- The SQL text of the dynamic UPDATE. Each extra-field key is pasted unescaped into that text (backend/server.js:188, 191), so the database reads a key as SQL. An unquoted key is folded to lower case: `SKU` writes `sku`. A key can also name several columns, as `sku = $3, outlet_name` does. A key can even rewrite the WHERE clause and so change other complaints. The model treats every key as an exact column name.
- `Workflow.ApplyTransition`: its promises hold for extra-field keys that are exact column names. For those keys, only the named columns and the status of the one complaint change, and exactly one history entry is written. A key that the database folds or reads as more SQL is refused in the model (500 with no effect), whereas the code may accept it. Such a key can write other columns, or other complaints without a history entry.
- `Lifecycle.ReplayPreservesValid`: the history invariant, and every lemma built on `Workflow.ApplyTransition`, covers only requests whose extra-field keys are exact column names, for the reason above.
- Database type coercion of written values. Values are stored as sent.
- Rejection of unknown columns. An exact key that names no column, or names the key `id`, is treated as a failed UPDATE (500) with no effect.
- `Workflow.CreateComplaint`: every admitted request files a complaint. The INSERT's own failures are not modelled, such as a value of the wrong type or an `issue_type_id` with no issue type. The code answers those with 500 (backend/server.js:108-111).
- JOINs for display names (`sales_rep_name`, `issue_type_name`, `changed_by_name`). The joins' filtering of rows with dangling references is also left out.
- `GET /api/users` and `GET /api/issue-types`. They are plain reads.
- Parsing of the `:id` path parameter. Ids are naturals.
- Error message texts. Only the failure kind and its HTTP code are modelled.
- JSON numbers other than integers, and nested objects, in `Common.Value`.
- Role names that coincide with properties every JavaScript object inherits. For example, a role `constructor` would find an entry in the transitions object.
- React rendering, routing, toasts and navigation.
- The other dashboards, the mock authentication context and the mock data.
- `ComplaintForm.Validate`: quantity is the number after zod's coercion, so the coercion of a string is not modelled. The issue list's order is modelled, but not the other zod issue fields.
- `Workflow.ListComplaints`: the order among rows with equal `created_at` is left unspecified, as SQL leaves it; so is the order among rows whose `created_at` is NULL.
- `Workflow.ListComplaints`: a `created_at` written as text, a boolean or an array (PostgreSQL would convert it to a timestamp or refuse the update) is ordered as NULL.
- `Login.LogIn`: an email sent as an array is answered 404. The driver sends it as a PostgreSQL array literal such as `{"a"}`, which would find a user stored with exactly that text as email.
- `Workflow.GetComplaint`: its history is in insertion order, and so ends at the complaint's status, only when the clock advances over the run (`Lifecycle.FetchShowsStatus`). The `now` of each request is a free parameter. A request stamped earlier than an entry already written is sorted before that entry by `created_at`.
- `Login.ParamText`: JSON numbers are unbounded integers in the model. JavaScript reads a body number as a double, which rounds integers beyond 2^53, and `String` prints one of 10^21 or more in exponent form (`1e+21`). For such an email the driver sends different text than `Decimal.IntToString`.
- `Login.NumericEmailIsItsNumeral`: holds for the model's unbounded integers. For a number beyond 2^53 in magnitude the code looks up the text of the rounded double instead, for the reason above.
- `Decimal.IntToString`: gives the digits of any integer. It matches JavaScript's `String` only for integers a double holds exactly and below 10^21 in magnitude.
- `Workflow.GetComplaint`: the order among history entries with equal `created_at` is left unspecified, as SQL leaves it.
- `Lifecycle.ReplayKeepsCodesSequential`: it assumes no update writes `complaint_code` through its extra fields. The code permits such writes, and then codes can repeat.

## Findings

| source | as written | input that shows it | evidently intended | confidence | as-written member | corrected member |
|---|---|---|---|---|---|---|
| src/components/dashboards/AdminDashboard.tsx:105 | a new issue type gets the id `String(length + 1)` | add types A and B (ids "1" and "2"), delete "1", then add C: C gets id "2", which B still has, so deleting "2" removes both | each new issue type gets an id that no existing entry has | high (not executed) | `AdminLists.AsWrittenIdCollides` | `AdminLists.AddIssueType` |

=== FILE: admin.dfy ===
/** The administrator's two list editors: user records (edit, save,
    cancel) and issue types (add, delete). Both are client-side state
    updates on immutable lists. */
module AdminLists {
  import opened Common
  import Strings
  import Decimal

  // ---------------------------------------------------------------------
  // User management

  datatype UserRecord = UserRecord(
    id: string, name: string, email: string, role: string, department: string, status: string)

  /** The user list and the record being edited, if any. */
  datatype UserEditor = UserEditor(users: seq<UserRecord>, editing: Option<UserRecord>)

  /** The fields the edit row's inputs write. */
  datatype UserField = Name | Email | Role | Department | Status

  /** `handleEdit`: start editing a copy of `u`. */
  function StartEdit(ed: UserEditor, u: UserRecord): (r: UserEditor)
    ensures r.users == ed.users && r.editing == Some(u)
  {
    ed.(editing := Some(u))
  }

  /** `handleChange` and `handleRoleChange`: overwrite one field of the
      record being edited. The inputs exist only while a record is being
      edited. */
  function ChangeField(ed: UserEditor, f: UserField, v: string): (r: UserEditor)
    requires ed.editing.Some?
    ensures r.users == ed.users && r.editing.Some?
    ensures r.editing.value.id == ed.editing.value.id
    ensures f == Name ==> r.editing == Some(ed.editing.value.(name := v))
    ensures f == Email ==> r.editing == Some(ed.editing.value.(email := v))
    ensures f == Role ==> r.editing == Some(ed.editing.value.(role := v))
    ensures f == Department ==> r.editing == Some(ed.editing.value.(department := v))
    ensures f == Status ==> r.editing == Some(ed.editing.value.(status := v))
    ensures f != Name ==> r.editing.value.name == ed.editing.value.name
    ensures f != Email ==> r.editing.value.email == ed.editing.value.email
    ensures f != Role ==> r.editing.value.role == ed.editing.value.role
    ensures f != Department ==> r.editing.value.department == ed.editing.value.department
    ensures f != Status ==> r.editing.value.status == ed.editing.value.status
  {
    var e := ed.editing.value;
    var e' := match f
      case Name => e.(name := v)
      case Email => e.(email := v)
      case Role => e.(role := v)
      case Department => e.(department := v)
      case Status => e.(status := v);
    ed.(editing := Some(e'))
  }

  /** `users.map(u => u.id === e.id ? e : u)`. */
  function ReplaceById(users: seq<UserRecord>, e: UserRecord): (r: seq<UserRecord>)
    ensures |r| == |users|
    ensures forall i :: 0 <= i < |users| ==>
      r[i] == (if users[i].id == e.id then e else users[i])
  {
    if |users| == 0 then []
    else [if users[0].id == e.id then e else users[0]] + ReplaceById(users[1..], e)
  }

  /** `handleSave`: every user whose id is the edited record's id is
      replaced by it, every other user stays where it was, and editing
      ends. The Save button is shown only while a record is being edited. */
  function SaveEdit(ed: UserEditor): (r: UserEditor)
    requires ed.editing.Some?
    ensures r.editing.None?
    ensures r.users == ReplaceById(ed.users, ed.editing.value)
  {
    UserEditor(ReplaceById(ed.users, ed.editing.value), None)
  }

  /** `handleCancel`: editing ends and the list is untouched. */
  function CancelEdit(ed: UserEditor): (r: UserEditor)
    ensures r.editing.None? && r.users == ed.users
  {
    ed.(editing := None)
  }

  /** Saving never changes which ids the list holds, nor their order. */
  lemma SaveKeepsIds(ed: UserEditor)
    requires ed.editing.Some?
    ensures forall i :: 0 <= i < |ed.users| ==> SaveEdit(ed).users[i].id == ed.users[i].id
  {
  }

  /** Saving the same record again changes nothing more. */
  lemma SaveIdempotent(users: seq<UserRecord>, e: UserRecord)
    ensures ReplaceById(ReplaceById(users, e), e) == ReplaceById(users, e)
  {
  }

  /** Saving a record whose id no user has leaves the list as it was. */
  lemma SaveUnknownIdNoChange(users: seq<UserRecord>, e: UserRecord)
    requires forall i :: 0 <= i < |users| ==> users[i].id != e.id
    ensures ReplaceById(users, e) == users
  {
  }

  // ---------------------------------------------------------------------
  // Issue types

  datatype IssueType = IssueType(id: string, name: string, description: string)

  /** The add form: a name and a description. */
  datatype Draft = Draft(name: string, description: string)

  const EmptyDraft := Draft("", "")

  datatype IssueTypeEditor = IssueTypeEditor(types: seq<IssueType>, draft: Draft)

  /** `issueTypes.filter(it => it.id !== id)`. */
  function RemoveId(types: seq<IssueType>, id: string): (r: seq<IssueType>)
    ensures |r| <= |types|
    ensures forall i :: 0 <= i < |r| ==> r[i].id != id
    ensures forall t :: t in r <==> t in types && t.id != id
  {
    if |types| == 0 then []
    else
      assert types == [types[0]] + types[1..];
      (if types[0].id != id then [types[0]] else []) + RemoveId(types[1..], id)
  }

  /** Delete keeps each entry with another id as many times as it occurred,
      and no entry with the deleted id. */
  lemma {:induction false} RemoveIdCounts(types: seq<IssueType>, id: string, t: IssueType)
    ensures t.id != id ==> multiset(RemoveId(types, id))[t] == multiset(types)[t]
    ensures t.id == id ==> multiset(RemoveId(types, id))[t] == 0
  {
    if |types| > 0 {
      RemoveIdCounts(types[1..], id, t);
      assert types == [types[0]] + types[1..];
      assert multiset(types) == multiset([types[0]]) + multiset(types[1..]);
      var head := if types[0].id != id then [types[0]] else [];
      assert multiset(RemoveId(types, id)) == multiset(head) + multiset(RemoveId(types[1..], id));
    }
  }

  /** Removing distributes over concatenation, so the entries kept keep
      their relative order. */
  lemma {:induction false} RemoveIdConcat(a: seq<IssueType>, b: seq<IssueType>, id: string)
    ensures RemoveId(a + b, id) == RemoveId(a, id) + RemoveId(b, id)
  {
    if |a| == 0 {
      assert a + b == b;
    } else {
      var ab := a + b;
      assert ab[0] == a[0] && ab[1..] == a[1..] + b;
      RemoveIdConcat(a[1..], b, id);
    }
  }

  /** Deleting the same id twice is deleting it once. */
  lemma {:induction false} RemoveIdIdempotent(types: seq<IssueType>, id: string)
    ensures RemoveId(RemoveId(types, id), id) == RemoveId(types, id)
  {
    if |types| > 0 {
      RemoveIdIdempotent(types[1..], id);
      var rest := RemoveId(types[1..], id);
      if types[0].id != id {
        assert RemoveId(types, id) == [types[0]] + rest;
        assert ([types[0]] + rest)[1..] == rest;
      } else {
        assert RemoveId(types, id) == rest;
      }
    }
  }

  /** `handleDelete`: the form is untouched. */
  function DeleteIssueType(ed: IssueTypeEditor, id: string): (r: IssueTypeEditor)
    ensures r.types == RemoveId(ed.types, id) && r.draft == ed.draft
  {
    ed.(types := RemoveId(ed.types, id))
  }

  /** `handleAdd` as written: a blank name (after trimming) changes nothing;
      otherwise the draft is appended under the id `String(length + 1)`, the
      name untrimmed, and the form is cleared. */
  function AddAsWritten(ed: IssueTypeEditor): (r: IssueTypeEditor)
    ensures Strings.Trim(ed.draft.name) == "" ==> r == ed
    ensures Strings.Trim(ed.draft.name) != "" ==>
      && r.draft == EmptyDraft
      && r.types == ed.types
         + [IssueType(Decimal.NatToString(|ed.types| + 1), ed.draft.name, ed.draft.description)]
  {
    if Strings.Trim(ed.draft.name) == "" then ed
    else IssueTypeEditor(
      ed.types + [IssueType(Decimal.NatToString(|ed.types| + 1), ed.draft.name, ed.draft.description)],
      EmptyDraft)
  }

  /** After a delete, the length-based id repeats one still in use. Two
      adds on an empty list give ids "1" and "2"; deleting "1" leaves one
      entry, so the next add is given "2" again, and a later delete of "2"
      would remove both. */
  lemma AsWrittenIdCollides(a: IssueType, b: IssueType, d: Draft)
    requires a.id == "1" && b.id == "2" && Strings.Trim(d.name) != ""
    ensures var r := AddAsWritten(DeleteIssueType(IssueTypeEditor([a, b], d), "1"));
      |r.types| == 2 && r.types[0] == b && r.types[1].id == b.id
  {
    DeleteFirstOfTwo(a, b);
    var ed := DeleteIssueType(IssueTypeEditor([a, b], d), "1");
    assert ed.types == [b] && ed.draft == d;
    assert Decimal.NatToString(|ed.types| + 1) == "2";
    assert AddAsWritten(ed).types == [b, IssueType("2", d.name, d.description)];
  }

  lemma DeleteFirstOfTwo(a: IssueType, b: IssueType)
    requires a.id == "1" && b.id == "2"
    ensures RemoveId([a, b], "1") == [b]
  {
    assert [a, b][1..] == [b];
    assert [b][1..] == [];
  }

  /** The largest number any id reads as; 0 when none is numeric. */
  function MaxNumericId(types: seq<IssueType>): (m: nat)
    ensures forall i :: 0 <= i < |types| && Decimal.ParseNat(types[i].id).Some? ==>
      Decimal.ParseNat(types[i].id).value <= m
  {
    if |types| == 0 then 0
    else
      var rest := MaxNumericId(types[1..]);
      assert forall i :: 1 <= i < |types| ==> types[i] == types[1..][i - 1];
      match Decimal.ParseNat(types[0].id)
      case Some(n) => if n > rest then n else rest
      case None => rest
  }

  /** The id the add form should hand out: one past the largest numeric
      id, which no entry has. */
  function FreshId(types: seq<IssueType>): (id: string)
    ensures forall i :: 0 <= i < |types| ==> types[i].id != id
  {
    var m := MaxNumericId(types);
    Decimal.ParseNatToString(m + 1);
    Decimal.NatToString(m + 1)
  }

  /** `handleAdd` with the id taken from `FreshId`: the same blank-name
      guard and form reset, and the new entry's id differs from every id in
      the list. */
  function AddIssueType(ed: IssueTypeEditor): (r: IssueTypeEditor)
    ensures Strings.Trim(ed.draft.name) == "" ==> r == ed
    ensures Strings.Trim(ed.draft.name) != "" ==>
      && r.draft == EmptyDraft
      && |r.types| == |ed.types| + 1
      && r.types[..|ed.types|] == ed.types
      && r.types[|ed.types|].name == ed.draft.name
      && r.types[|ed.types|].description == ed.draft.description
      && forall i :: 0 <= i < |ed.types| ==> ed.types[i].id != r.types[|ed.types|].id
  {
    if Strings.Trim(ed.draft.name) == "" then ed
    else
      var types := ed.types + [IssueType(FreshId(ed.types), ed.draft.name, ed.draft.description)];
      assert types[..|ed.types|] == ed.types;
      IssueTypeEditor(types, EmptyDraft)
  }

  /** Ids "1" to "n" in order: the list as it stands when nothing has been
      deleted. */
  predicate NumberedInOrder(types: seq<IssueType>)
  {
    forall i :: 0 <= i < |types| ==> types[i].id == Decimal.NatToString(i + 1)
  }

  lemma {:induction false} MaxOfNumbered(types: seq<IssueType>)
    requires NumberedInOrder(types)
    ensures MaxNumericId(types) == |types|
  {
    if |types| > 0 {
      var n := |types|;
      Decimal.ParseNatToString(n);
      assert Decimal.ParseNat(types[n - 1].id) == Some(n);
      assert MaxNumericId(types) >= n;
      forall i | 0 <= i < n ensures Decimal.ParseNat(types[i].id) == Some(i + 1) {
        Decimal.ParseNatToString(i + 1);
      }
      MaxBound(types, n);
    }
  }

  /** No id reading above `b` means the maximum is at most `b`. */
  lemma {:induction false} MaxBound(types: seq<IssueType>, b: nat)
    requires forall i :: 0 <= i < |types| && Decimal.ParseNat(types[i].id).Some? ==>
      Decimal.ParseNat(types[i].id).value <= b
    ensures MaxNumericId(types) <= b
  {
    if |types| > 0 {
      assert forall i :: 1 <= i < |types| ==> types[i] == types[1..][i - 1];
      MaxBound(types[1..], b);
    }
  }

  /** While nothing has been deleted the corrected add hands out the same
      id as the original. */
  lemma AddAgreesWithoutDeletes(ed: IssueTypeEditor)
    requires NumberedInOrder(ed.types)
    ensures AddIssueType(ed) == AddAsWritten(ed)
  {
    MaxOfNumbered(ed.types);
  }
}

=== FILE: codes.dfy ===
/** Complaint codes: `CMP-` followed by a sequence number padded with
    zeros to six digits. */
module ComplaintCodes {
  import opened Common
  import opened Decimal

  const Prefix := "CMP-"
  const Width := 6

  /** The code given to the complaint numbered `n`. */
  function FormatCode(n: nat): (code: string)
    ensures |code| >= 4 + Width && code[..4] == Prefix
    ensures AllDigits(code[4..])
    ensures n < 1000000 ==> |code| == 4 + Width
  {
    var digits := NatToString(n);
    NatToStringBound(n);
    Prefix + PadStart(digits, Width, '0')
  }

  /** Reading the sequence number back from a code. */
  function ParseCode(code: string): (r: Option<nat>)
    ensures r.Some? ==> |code| > 4 && code[..4] == Prefix
  {
    if |code| > 4 && code[..4] == Prefix then ParseNat(code[4..]) else None
  }

  /** Reading a code gives back the number it was made from. */
  lemma ParseFormatCode(n: nat)
    ensures ParseCode(FormatCode(n)) == Some(n)
  {
    var code := FormatCode(n);
    assert code[4..] == PadStart(NatToString(n), Width, '0');
    ParsePadded(n, Width);
  }

  /** Different numbers give different codes. */
  lemma FormatCodeInjective(m: nat, n: nat)
    requires m != n
    ensures FormatCode(m) != FormatCode(n)
  {
    ParseFormatCode(m);
    ParseFormatCode(n);
  }

  lemma NatToStringBound(n: nat)
    ensures n < 1000000 ==> |NatToString(n)| <= Width
    ensures n >= 1000000 ==> |NatToString(n)| > Width
  {
    assert Pow10(6) == 1000000;
    NatToStringLength(n, 6);
  }

  /** Appending a digit to a numeral of a positive number. */
  lemma AppendDigit(n: nat, d: nat)
    requires n >= 1 && d < 10
    ensures NatToString(10 * n + d) == NatToString(n) + [DigitChar(d)]
  {
    assert (10 * n + d) / 10 == n && (10 * n + d) % 10 == d;
  }

  lemma SevenDigits()
    ensures NatToString(1000000) == "1000000"
  {
    AppendDigit(1, 0);
    AppendDigit(10, 0);
    AppendDigit(100, 0);
    AppendDigit(1000, 0);
    AppendDigit(10000, 0);
    AppendDigit(100000, 0);
  }

  lemma SixNines()
    ensures NatToString(999999) == "999999"
  {
    AppendDigit(9, 9);
    AppendDigit(99, 9);
    AppendDigit(999, 9);
    AppendDigit(9999, 9);
    AppendDigit(99999, 9);
  }

  /** Past 999999 the number no longer fits in six digits, the code grows
      to eleven characters and comparing codes as text stops following
      their numbers: `CMP-1000000` sorts before `CMP-999999`. */
  lemma TextOrderBreaksAtOneMillion()
    ensures FormatCode(1000000) == "CMP-1000000"
    ensures FormatCode(999999) == "CMP-999999"
    ensures FormatCode(1000000)[4] < FormatCode(999999)[4]
  {
    SevenDigits();
    SixNines();
    assert PadStart("1000000", Width, '0') == "1000000";
    assert PadStart("999999", Width, '0') == "999999";
  }
}

=== FILE: common.dfy ===
/** Values shared by every part of the model: optional values, the JSON
    values a request body carries, JavaScript truthiness, and the outcome of
    a request handler. */
module Common {

  datatype Option<+T> = None | Some(value: T)

  /** A JSON value as it arrives in a request body or is written to a column.
      Fractional numbers and nested objects are not modelled. */
  datatype Value =
    | Null
    | Bool(b: bool)
    | Num(n: int)
    | Text(s: string)
    | Items(elems: seq<Value>)

  /** JavaScript truthiness: `null`/`undefined`, `false`, `0` and `""` are
      falsy; every array, even an empty one, is truthy. */
  predicate Truthy(v: Value)
  {
    match v
    case Null => false
    case Bool(b) => b
    case Num(n) => n != 0
    case Text(s) => s != ""
    case Items(_) => true
  }

  /** A request body: the keys present in the JSON object. */
  type Body = map<string, Value>

  /** Reading a key of a body; an absent key reads as `undefined`, which the
      model identifies with `null` (both are falsy and both are stored as
      SQL NULL). */
  function Field(body: Body, key: string): (v: Value)
    ensures key !in body ==> v == Null
    ensures key in body ==> v == body[key]
  {
    if key in body then body[key] else Null
  }

  /** Why a request was answered with an error. */
  datatype Failure =
    | Unauthenticated   // no header, or no token in it
    | InvalidToken      // the token does not verify
    | Forbidden         // role not admitted
    | NotFound          // no such complaint or user
    | BadRequest        // a required body field is missing
    | WrongPassword     // login with a password that does not match
    | ServerError       // the store refused the statement

  /** The HTTP status code each failure is answered with. */
  function HttpCode(f: Failure): (code: nat)
    ensures 400 <= code < 600
  {
    match f
    case Unauthenticated => 401
    case InvalidToken => 400
    case Forbidden => 403
    case NotFound => 404
    case BadRequest => 400
    case WrongPassword => 401
    case ServerError => 500
  }

  datatype Outcome<+T> = Ok(value: T) | Err(failure: Failure)
}

=== FILE: complaint_form.dfy ===
/** The new-complaint form's validation schema. A field the form never set
    is `None`; zod reports such a string field as "Required". Quantity is
    the number after coercion; photos are counted. */
module ComplaintForm {
  import opened Common

  datatype Form = Form(
    batchNo: Option<string>,
    bottleType: Option<string>,
    quantity: int,
    issueType: Option<string>,
    photoCount: nat,
    description: Option<string>)

  /** One validation message, attached to a field. */
  datatype Issue = Issue(field: string, message: string)

  const MinPhotos := 3

  /** The message for a string field that must be non-empty. */
  function RequiredText(field: string, v: Option<string>, message: string): (r: seq<Issue>)
    ensures r == [] <==> v.Some? && |v.value| >= 1
  {
    match v
    case None => [Issue(field, "Required")]
    case Some(s) => if |s| < 1 then [Issue(field, message)] else []
  }

  /** The schema's messages, in the schema's field order. */
  function Validate(f: Form): (issues: seq<Issue>)
    ensures f.photoCount < MinPhotos ==> Issue("photos", "Please upload at least 3 photos") in issues
    ensures f.quantity < 1 ==> Issue("quantity", "Quantity must be at least 1") in issues
  {
    RequiredText("batchNo", f.batchNo, "Batch number is required")
    + RequiredText("bottleType", f.bottleType, "Please select a bottle type")
    + (if f.quantity < 1 then [Issue("quantity", "Quantity must be at least 1")] else [])
    + RequiredText("issueType", f.issueType, "Please select an issue type")
    + (if f.photoCount < MinPhotos then [Issue("photos", "Please upload at least 3 photos")] else [])
  }

  predicate Valid(f: Form)
  {
    Validate(f) == []
  }

  /** The form passes exactly when the three text fields are non-empty,
      the quantity is at least 1 and at least three photos are attached. */
  lemma ValidIff(f: Form)
    ensures Valid(f) <==>
      && f.batchNo.Some? && |f.batchNo.value| >= 1
      && f.bottleType.Some? && |f.bottleType.value| >= 1
      && f.issueType.Some? && |f.issueType.value| >= 1
      && f.quantity >= 1
      && f.photoCount >= 3
  {
  }

  /** The description, absent or any text, never changes the verdict. */
  lemma DescriptionIrrelevant(f: Form, d: Option<string>)
    ensures Validate(f.(description := d)) == Validate(f)
  {
  }

  /** The four conditions other than the photo count. */
  predicate FieldsFilled(f: Form)
  {
    && f.batchNo.Some? && |f.batchNo.value| >= 1
    && f.bottleType.Some? && |f.bottleType.value| >= 1
    && f.issueType.Some? && |f.issueType.value| >= 1
    && f.quantity >= 1
  }

  /** Two or fewer photos are refused whatever else the form holds; exactly
      three are accepted once the other fields are filled. */
  lemma PhotoBoundary(f: Form)
    ensures f.photoCount <= 2 ==> !Valid(f)
    ensures f.photoCount == 3 && FieldsFilled(f) ==> Valid(f)
  {
  }

  /** A quantity of 0 or below is refused whatever else the form holds; 1
      is accepted once the text fields and photos are in order. */
  lemma QuantityBoundary(f: Form)
    ensures f.quantity <= 0 ==> !Valid(f)
    ensures FieldsFilled(f.(quantity := 1)) && f.photoCount >= 3 ==> Valid(f.(quantity := 1))
  {
  }
}

=== FILE: decimal.dfy ===
/** Decimal text of natural numbers: JavaScript's `String(n)` for a
    non-negative integer, the value of a digit string, and left padding. */
module Decimal {
  import opened Common

  predicate IsDigit(c: char)
  {
    '0' <= c <= '9'
  }

  predicate AllDigits(s: string)
  {
    forall i :: 0 <= i < |s| ==> IsDigit(s[i])
  }

  function DigitChar(d: nat): (c: char)
    requires d < 10
    ensures IsDigit(c)
    ensures c as int - '0' as int == d
  {
    ['0', '1', '2', '3', '4', '5', '6', '7', '8', '9'][d]
  }

  function DigitOf(c: char): nat
    requires IsDigit(c)
  {
    c as int - '0' as int
  }

  /** `String(n)`: the shortest decimal numeral of `n`. */
  function NatToString(n: nat): (s: string)
    ensures 1 <= |s|
    ensures AllDigits(s)
    ensures s[0] == '0' ==> n == 0
  {
    if n < 10 then [DigitChar(n)]
    else NatToString(n / 10) + [DigitChar(n % 10)]
  }

  /** `String(n)` for any integer: the numeral of the magnitude, after a
      minus sign when `n` is negative. */
  function IntToString(n: int): (s: string)
    ensures n >= 0 ==> ParseNat(s) == Some(n)
    ensures n < 0 ==> |s| >= 2 && s[0] == '-' && ParseNat(s[1..]) == Some(-n)
  {
    if n >= 0 then
      ParseNatToString(n);
      NatToString(n)
    else
      ParseNatToString(-n);
      assert ("-" + NatToString(-n))[1..] == NatToString(-n);
      "-" + NatToString(-n)
  }

  /** Distinct integers have distinct numerals. */
  lemma IntToStringInjective(m: int, n: int)
    ensures IntToString(m) == IntToString(n) ==> m == n
  {
  }

  /** The number a digit string denotes; leading zeros are allowed. */
  function DigitsValue(s: string): nat
    requires AllDigits(s)
  {
    if |s| == 0 then 0
    else DigitsValue(s[..|s| - 1]) * 10 + DigitOf(s[|s| - 1])
  }

  /** Reading a string as a natural number: a non-empty run of digits. */
  function ParseNat(s: string): (r: Option<nat>)
    ensures r.Some? <==> 1 <= |s| && AllDigits(s)
  {
    if 1 <= |s| && AllDigits(s) then Some(DigitsValue(s)) else None
  }

  /** `n` copies of `c`. */
  function Repeat(c: char, n: nat): (r: string)
    ensures |r| == n
    ensures forall i :: 0 <= i < n ==> r[i] == c
  {
    if n == 0 then [] else [c] + Repeat(c, n - 1)
  }

  /** JavaScript's `s.padStart(width, fill)` with a one-character fill. */
  function PadStart(s: string, width: nat, fill: char): (r: string)
    ensures |s| >= width ==> r == s
    ensures |s| < width ==> |r| == width && r[width - |s|..] == s
    ensures |s| < width ==> forall i :: 0 <= i < width - |s| ==> r[i] == fill
  {
    if |s| >= width then s else Repeat(fill, width - |s|) + s
  }

  lemma {:induction false} NatToStringValue(n: nat)
    ensures DigitsValue(NatToString(n)) == n
  {
    if n >= 10 {
      var s := NatToString(n);
      assert s[..|s| - 1] == NatToString(n / 10);
      NatToStringValue(n / 10);
    }
  }

  /** Parsing undoes `String(n)`. */
  lemma ParseNatToString(n: nat)
    ensures ParseNat(NatToString(n)) == Some(n)
  {
    NatToStringValue(n);
  }

  /** `String(n)` is injective. */
  lemma NatToStringInjective(m: nat, n: nat)
    ensures NatToString(m) == NatToString(n) ==> m == n
  {
    ParseNatToString(m);
    ParseNatToString(n);
  }

  lemma {:induction false} LeadingZeroValue(s: string)
    requires AllDigits(s)
    ensures AllDigits(['0'] + s)
    ensures DigitsValue(['0'] + s) == DigitsValue(s)
  {
    if |s| > 0 {
      var t := ['0'] + s;
      assert t[..|t| - 1] == ['0'] + s[..|s| - 1];
      LeadingZeroValue(s[..|s| - 1]);
    }
  }

  /** Zeros in front of a digit string do not change its value. */
  lemma {:induction false} ZeroPaddingValue(n: nat, s: string)
    requires AllDigits(s)
    ensures AllDigits(Repeat('0', n) + s)
    ensures DigitsValue(Repeat('0', n) + s) == DigitsValue(s)
  {
    if n > 0 {
      var rest := Repeat('0', n - 1) + s;
      ZeroPaddingValue(n - 1, s);
      assert Repeat('0', n) == ['0'] + Repeat('0', n - 1);
      assert Repeat('0', n) + s == ['0'] + rest;
      LeadingZeroValue(rest);
    } else {
      assert Repeat('0', n) + s == s;
    }
  }

  /** Zero padding keeps a numeral readable as the same number. */
  lemma ParsePadded(n: nat, width: nat)
    ensures ParseNat(PadStart(NatToString(n), width, '0')) == Some(n)
  {
    var s := NatToString(n);
    NatToStringValue(n);
    if |s| < width {
      ZeroPaddingValue(width - |s|, s);
    }
  }

  function Pow10(k: nat): nat
  {
    if k == 0 then 1 else 10 * Pow10(k - 1)
  }

  /** A numeral has at most `k` digits exactly when the number is below
      10 to the `k`. */
  lemma {:induction false} NatToStringLength(n: nat, k: nat)
    requires k >= 1
    ensures |NatToString(n)| <= k <==> n < Pow10(k)
  {
    if k > 1 {
      NatToStringLength(n / 10, k - 1);
    }
    if n >= 10 {
      assert |NatToString(n)| == |NatToString(n / 10)| + 1;
    }
  }
}

=== FILE: gate.dfy ===
/** The access gate put in front of every protected endpoint: it reads the
    `Authorization` header, verifies the token in it and checks the role.
    Token verification (signature and expiry) is a parameter `decode`, a
    partial function from token text to the claims signed into it. */
module Gate {
  import opened Common
  import Strings

  /** What a session token carries. */
  datatype Claims = Claims(id: int, role: string, name: string)

  /** `header.split(' ')[1]` when that is a non-empty string: the text
      between the first space and the next one. */
  function BearerToken(header: string): (t: Option<string>)
    ensures t.Some? ==> t.value != "" && ' ' !in t.value
    ensures ' ' !in header ==> t.None?
  {
    var parts := Strings.Split(header, ' ');
    if ' ' !in header then
      Strings.SplitNoSeparator(header, ' ');
      None
    else if |parts| >= 2 && parts[1] != "" then Some(parts[1])
    else None
  }

  /** A header made of a scheme word, one space and a token yields that
      token, whatever follows the token after a further space. */
  lemma WellFormedHeader(scheme: string, token: string, rest: string)
    requires ' ' !in scheme && ' ' !in token && token != ""
    requires rest == "" || rest[0] == ' '
    ensures BearerToken(scheme + " " + token + rest) == Some(token)
  {
    var h := scheme + " " + token + rest;
    assert h == scheme + [' '] + (token + rest);
    assert h[|scheme|] == ' ';
    Strings.SplitAfterWord(scheme, token + rest, ' ');
    Strings.FirstPart(token, rest, ' ');
  }

  /** A header whose first space is followed by nothing or by another
      space has no token: `"Bearer "` and `"Bearer  tok"` are refused. */
  lemma EmptySecondWord(scheme: string, rest: string)
    requires ' ' !in scheme
    requires rest == "" || rest[0] == ' '
    ensures BearerToken(scheme + " " + rest) == None
  {
    var h := scheme + " " + rest;
    assert h == scheme + [' '] + rest;
    assert h[|scheme|] == ' ';
    Strings.SplitAfterWord(scheme, rest, ' ');
    assert "" + rest == rest;
    Strings.FirstPart("", rest, ' ');
  }

  /** The gate's verdict for a request carrying `header`, on an endpoint
      that admits the roles in `roles` (everyone when `roles` is empty). */
  function Authorize(header: Option<string>, roles: seq<string>,
                     decode: string -> Option<Claims>): (r: Outcome<Claims>)
    ensures header.None? ==> r == Err(Unauthenticated)
    ensures header.Some? && BearerToken(header.value).None? ==> r == Err(Unauthenticated)
    ensures r == Err(InvalidToken) <==>
      header.Some? && BearerToken(header.value).Some? && decode(BearerToken(header.value).value).None?
    ensures r.Ok? <==>
      header.Some? && BearerToken(header.value).Some?
      && decode(BearerToken(header.value).value).Some?
      && (|roles| == 0 || decode(BearerToken(header.value).value).value.role in roles)
    ensures r.Ok? ==> decode(BearerToken(header.value).value) == Some(r.value)
    ensures r == Err(Forbidden) <==>
      header.Some? && BearerToken(header.value).Some?
      && decode(BearerToken(header.value).value).Some?
      && |roles| > 0 && decode(BearerToken(header.value).value).value.role !in roles
  {
    if header.None? || header.value == "" then Err(Unauthenticated)
    else
      match BearerToken(header.value)
      case None => Err(Unauthenticated)
      case Some(token) =>
        match decode(token)
        case None => Err(InvalidToken)
        case Some(user) =>
          if |roles| > 0 && user.role !in roles then Err(Forbidden)
          else Ok(user)
  }

  /** An endpoint without a role list admits every holder of a token that
      verifies. */
  lemma OpenEndpointAdmitsAnyUser(scheme: string, token: string,
                                  decode: string -> Option<Claims>)
    requires ' ' !in scheme && ' ' !in token && token != ""
    requires decode(token).Some?
    ensures Authorize(Some(scheme + " " + token), [], decode) == Ok(decode(token).value)
  {
    WellFormedHeader(scheme, token, "");
    assert scheme + " " + token + "" == scheme + " " + token;
  }
}

=== FILE: lifecycle.dfy ===
/** What the complaint endpoints keep true across any run of requests: the
    history reconstructs every complaint's status, it grows by exactly one
    entry per accepted transition, and complaint codes stay sequential and
    distinct. */
module Lifecycle {
  import opened Common
  import opened Policy
  import opened Gate
  import opened ComplaintStore
  import opened Workflow
  import ComplaintCodes

  /** A request to one of the complaint endpoints. */
  datatype Request =
    | File(header: Option<string>, body: Body, now: int)
    | SetStatus(header: Option<string>, id: nat, body: Body, now: int)
    | ListAll(header: Option<string>)
    | Fetch(header: Option<string>, id: nat)

  /** The store after one request; reads leave it untouched. */
  function Step(st: Store, req: Request, decode: string -> Option<Claims>): Store
  {
    match req
    case File(header, body, now) => CreateComplaint(st, header, decode, body, now).0
    case SetStatus(header, id, body, now) => UpdateStatus(st, header, decode, id, body, now).0
    case ListAll(_) => st
    case Fetch(_, _) => st
  }

  function Replay(st: Store, reqs: seq<Request>, decode: string -> Option<Claims>): Store
    decreases |reqs|
  {
    if |reqs| == 0 then st else Replay(Step(st, reqs[0], decode), reqs[1..], decode)
  }

  /** Whether `req` is a status update of complaint `x` that was accepted. */
  predicate Transitioned(st: Store, req: Request, decode: string -> Option<Claims>, x: nat)
  {
    req.SetStatus? && req.id == x
    && UpdateStatus(st, req.header, decode, req.id, req.body, req.now).1.Ok?
  }

  /** How many requests of a run were accepted transitions of `x`. */
  function TransitionCount(st: Store, reqs: seq<Request>, decode: string -> Option<Claims>, x: nat): nat
    decreases |reqs|
  {
    if |reqs| == 0 then 0
    else
      (if Transitioned(st, reqs[0], decode, x) then 1 else 0)
      + TransitionCount(Step(st, reqs[0], decode), reqs[1..], decode, x)
  }

  /** Filing keeps the store valid, starts a new trail holding only the
      creation entry and leaves every other trail alone. */
  lemma FileKeepsValid(st: Store, user: Claims, body: Body, now: int)
    requires Valid(st)
    ensures var (st', id, c) := FileComplaint(st, user, body, now);
      && Valid(st')
      && id !in st.complaints
      && Trail(st'.history, id) == [st'.history[|st.history|]]
      && (forall x :: x != id ==> Trail(st'.history, x) == Trail(st.history, x))
  {
    var (st', id, c) := FileComplaint(st, user, body, now);
    var e := st'.history[|st.history|];
    assert st'.history == st.history + [e];
    AddKeepsValid(st, c, e);
  }

  /** A status update, accepted or not, keeps the store valid; when
      accepted it extends the trail of its complaint by its own entry, and
      it changes no other trail. */
  lemma TransitionKeepsValid(st: Store, user: Claims, id: nat, body: Body, now: int, x: nat)
    requires Valid(st)
    ensures var (st', out) := ApplyTransition(st, user, id, body, now);
      && Valid(st')
      && Trail(st'.history, x)
         == Trail(st.history, x) + (if out.Ok? && x == id then [st'.history[|st.history|]] else [])
  {
    var (st', out) := ApplyTransition(st, user, id, body, now);
    if out.Ok? {
      var e := st'.history[|st.history|];
      assert st'.history == st.history + [e];
      ReplaceKeepsValid(st, id, out.value, e);
    }
  }

  lemma StepPreservesValid(st: Store, req: Request, decode: string -> Option<Claims>)
    requires Valid(st)
    ensures Valid(Step(st, req, decode))
  {
    match req
    case File(header, body, now) =>
      if CreateComplaint(st, header, decode, body, now).1.Ok? {
        FileKeepsValid(st, Authorize(header, [Outlet], decode).value, body, now);
      }
    case SetStatus(header, id, body, now) =>
      if Authorize(header, [], decode).Ok? {
        TransitionKeepsValid(st, Authorize(header, [], decode).value, id, body, now, 0);
      }
    case ListAll(_) =>
    case Fetch(_, _) =>
  }

  /** Every run of requests keeps the store valid: each complaint's trail
      opens with its creation entry, chains status to status, and ends at
      the complaint's current status. */
  lemma {:induction false} ReplayPreservesValid(st: Store, reqs: seq<Request>,
                                                decode: string -> Option<Claims>)
    requires Valid(st)
    ensures Valid(Replay(st, reqs, decode))
    decreases |reqs|
  {
    if |reqs| > 0 {
      StepPreservesValid(st, reqs[0], decode);
      ReplayPreservesValid(Step(st, reqs[0], decode), reqs[1..], decode);
    }
  }

  /** A filing adds a new complaint and leaves an existing one's trail
      alone. */
  lemma FileTrail(st: Store, header: Option<string>, decode: string -> Option<Claims>,
                  body: Body, now: int, x: nat)
    requires Valid(st) && x in st.complaints
    ensures var st' := CreateComplaint(st, header, decode, body, now).0;
      x in st'.complaints && Trail(st'.history, x) == Trail(st.history, x)
  {
    var (st', out) := CreateComplaint(st, header, decode, body, now);
    if out.Ok? {
      FileKeepsValid(st, Authorize(header, [Outlet], decode).value, body, now);
    }
  }

  /** A status update grows a trail by one exactly when it is an accepted
      transition of that complaint. */
  lemma SetStatusTrail(st: Store, header: Option<string>, decode: string -> Option<Claims>,
                       id: nat, body: Body, now: int, x: nat)
    requires Valid(st) && x in st.complaints
    ensures var (st', out) := UpdateStatus(st, header, decode, id, body, now);
      && x in st'.complaints
      && |Trail(st'.history, x)| == |Trail(st.history, x)| + (if out.Ok? && id == x then 1 else 0)
  {
    if Authorize(header, [], decode).Ok? {
      TransitionKeepsValid(st, Authorize(header, [], decode).value, id, body, now, x);
    }
  }

  lemma StepTrail(st: Store, req: Request, decode: string -> Option<Claims>, x: nat)
    requires Valid(st) && x in st.complaints
    ensures x in Step(st, req, decode).complaints
    ensures |Trail(Step(st, req, decode).history, x)|
            == |Trail(st.history, x)| + (if Transitioned(st, req, decode, x) then 1 else 0)
  {
    match req
    case File(header, body, now) =>
      FileTrail(st, header, decode, body, now, x);
    case SetStatus(header, id, body, now) =>
      SetStatusTrail(st, header, decode, id, body, now, x);
    case ListAll(_) =>
    case Fetch(_, _) =>
  }

  /** Over any run, a complaint's trail grows by exactly the number of
      accepted transitions of that complaint. */
  lemma {:induction false} ReplayTrail(st: Store, reqs: seq<Request>,
                                       decode: string -> Option<Claims>, x: nat)
    requires Valid(st) && x in st.complaints
    ensures x in Replay(st, reqs, decode).complaints
    ensures |Trail(Replay(st, reqs, decode).history, x)|
            == |Trail(st.history, x)| + TransitionCount(st, reqs, decode, x)
    decreases |reqs|
  {
    if |reqs| > 0 {
      StepTrail(st, reqs[0], decode, x);
      StepPreservesValid(st, reqs[0], decode);
      ReplayTrail(Step(st, reqs[0], decode), reqs[1..], decode, x);
    }
  }

  /** A complaint filed and then put through any run of requests has one
      history entry for its creation plus one per accepted transition, and
      its status is where the last entry ends. */
  lemma FiledThenTransitioned(st: Store, header: Option<string>, decode: string -> Option<Claims>,
                              body: Body, now: int, reqs: seq<Request>)
    requires Valid(st)
    requires Authorize(header, [Outlet], decode).Ok?
    ensures var (st1, out) := CreateComplaint(st, header, decode, body, now);
      var id := out.value.0;
      var fin := Replay(st1, reqs, decode);
      var t := Trail(fin.history, id);
      && id in fin.complaints
      && |t| == 1 + TransitionCount(st1, reqs, decode, id)
      && t[0].statusFrom == None && t[0].statusTo == PendingValidation
      && fin.complaints[id].status == t[|t| - 1].statusTo
  {
    var (st1, out) := CreateComplaint(st, header, decode, body, now);
    var id := out.value.0;
    var user := Authorize(header, [Outlet], decode).value;
    FileKeepsValid(st, user, body, now);
    ReplayTrail(st1, reqs, decode, id);
    ReplayPreservesValid(st1, reqs, decode);
  }

  /** Filing hands out the number one past the count, which is larger
      than every number already handed out, and keeps the numbering
      sequential. */
  lemma FileKeepsCodesSequential(st: Store, user: Claims, body: Body, now: int)
    requires Valid(st) && CodesSequential(st)
    ensures var (st', id, c) := FileComplaint(st, user, body, now);
      && CodesSequential(st')
      && CodeNumber(c) == Some(|st.complaints| + 1)
      && forall x :: x in st.complaints ==> CodeNumber(st.complaints[x]).value < CodeNumber(c).value
  {
    var (st', id, c) := FileComplaint(st, user, body, now);
    ComplaintCodes.ParseFormatCode(|st.complaints| + 1);
    AddKeepsCodesSequential(st, c);
    assert st'.complaints == st.(complaints := st.complaints[st.nextId := c]).complaints;
  }

  /** A status update keeps the numbering unless its extra fields overwrite
      the code column. */
  lemma TransitionKeepsCodesSequential(st: Store, user: Claims, id: nat, body: Body, now: int)
    requires CodesSequential(st)
    requires "complaint_code" !in body
    ensures CodesSequential(ApplyTransition(st, user, id, body, now).0)
  {
    var (st', out) := ApplyTransition(st, user, id, body, now);
    if out.Ok? {
      assert CodeNumber(out.value) == CodeNumber(st.complaints[id]);
      ReplaceKeepsCodesSequential(st, id, out.value);
    }
  }

  /** Requests that do not write the code column through extra fields. */
  predicate LeavesCodes(req: Request)
  {
    req.SetStatus? ==> "complaint_code" !in req.body
  }

  lemma StepKeepsCodesSequential(st: Store, req: Request, decode: string -> Option<Claims>)
    requires Valid(st) && CodesSequential(st) && LeavesCodes(req)
    ensures CodesSequential(Step(st, req, decode))
  {
    match req
    case File(header, body, now) =>
      if CreateComplaint(st, header, decode, body, now).1.Ok? {
        FileKeepsCodesSequential(st, Authorize(header, [Outlet], decode).value, body, now);
      }
    case SetStatus(header, id, body, now) =>
      if Authorize(header, [], decode).Ok? {
        TransitionKeepsCodesSequential(st, Authorize(header, [], decode).value, id, body, now);
      }
    case ListAll(_) =>
    case Fetch(_, _) =>
  }

  /** In any run whose status updates do not overwrite codes, the codes
      stay numbered 1 to the count, so no two complaints share a code. */
  lemma {:induction false} ReplayKeepsCodesSequential(st: Store, reqs: seq<Request>,
                                                      decode: string -> Option<Claims>)
    requires Valid(st) && CodesSequential(st)
    requires forall i :: 0 <= i < |reqs| ==> LeavesCodes(reqs[i])
    ensures CodesSequential(Replay(st, reqs, decode))
    decreases |reqs|
  {
    if |reqs| > 0 {
      StepKeepsCodesSequential(st, reqs[0], decode);
      StepPreservesValid(st, reqs[0], decode);
      ReplayKeepsCodesSequential(Step(st, reqs[0], decode), reqs[1..], decode);
    }
  }

  /** The policy looks at the role and the requested status only: whether
      an update is accepted does not depend on the complaint's current
      status. */
  lemma DecisionIgnoresCurrentStatus(st: Store, header: Option<string>,
                                     decode: string -> Option<Claims>, id: nat, body: Body,
                                     now: int, other: string)
    requires id in st.complaints
    ensures var st2 := st.(complaints := st.complaints[id := st.complaints[id].(status := other)]);
      UpdateStatus(st, header, decode, id, body, now).1.Ok?
      == UpdateStatus(st2, header, decode, id, body, now).1.Ok?
  {
  }

  /** Whether a request writes to the store, stamping its entry `now`. */
  predicate Writes(req: Request)
  {
    req.File? || req.SetStatus?
  }

  /** The clock moves forward over the run: every writing request is
      stamped after every entry of `h` and after every earlier writing
      request. */
  predicate ClockAdvances(h: seq<HistoryEntry>, reqs: seq<Request>)
  {
    forall k :: 0 <= k < |reqs| && Writes(reqs[k]) ==>
      && StampedBefore(h, reqs[k].now)
      && forall l :: 0 <= l < k && Writes(reqs[l]) ==> reqs[l].now < reqs[k].now
  }

  /** A request either leaves the history alone or appends one entry
      stamped with its own time. */
  lemma StepStamps(st: Store, req: Request, decode: string -> Option<Claims>)
    ensures var h := Step(st, req, decode).history;
      || h == st.history
      || (&& Writes(req) && |h| == |st.history| + 1
          && h[..|st.history|] == st.history && h[|st.history|].createdAt == req.now)
  {
    var h := Step(st, req, decode).history;
    match req
    case File(header, body, now) =>
      if CreateComplaint(st, header, decode, body, now).1.Ok? {
        assert h[..|st.history|] == st.history;
      }
    case SetStatus(header, id, body, now) =>
      if UpdateStatus(st, header, decode, id, body, now).1.Ok? {
        assert h[..|st.history|] == st.history;
      }
    case ListAll(_) =>
    case Fetch(_, _) =>
  }

  /** A request stamped after the whole history keeps it chronological. */
  lemma StepChronological(st: Store, req: Request, decode: string -> Option<Claims>)
    requires Chronological(st.history)
    requires Writes(req) ==> StampedBefore(st.history, req.now)
    ensures Chronological(Step(st, req, decode).history)
    ensures forall t :: StampedBefore(st.history, t) && (Writes(req) ==> req.now < t) ==>
      StampedBefore(Step(st, req, decode).history, t)
  {
    var h := Step(st, req, decode).history;
    StepStamps(st, req, decode);
    if h != st.history {
      var e := h[|st.history|];
      assert h == st.history + [e];
      AppendChronological(st.history, e);
    }
  }

  /** What is left of a run whose clock advances still has an advancing
      clock after its first request. */
  lemma ClockAdvancesTail(st: Store, reqs: seq<Request>, decode: string -> Option<Claims>)
    requires |reqs| > 0 && Chronological(st.history) && ClockAdvances(st.history, reqs)
    ensures ClockAdvances(Step(st, reqs[0], decode).history, reqs[1..])
  {
    var h := Step(st, reqs[0], decode).history;
    StepChronological(st, reqs[0], decode);
    forall k | 0 <= k < |reqs[1..]| && Writes(reqs[1..][k])
      ensures StampedBefore(h, reqs[1..][k].now)
      ensures forall l :: 0 <= l < k && Writes(reqs[1..][l]) ==> reqs[1..][l].now < reqs[1..][k].now
    {
      assert reqs[1..][k] == reqs[k + 1];
      forall l | 0 <= l < k && Writes(reqs[1..][l]) ensures reqs[1..][l].now < reqs[1..][k].now {
        assert reqs[1..][l] == reqs[l + 1];
      }
    }
  }

  /** A run whose clock advances keeps the history chronological. */
  lemma {:induction false} ReplayChronological(st: Store, reqs: seq<Request>,
                                               decode: string -> Option<Claims>)
    requires Chronological(st.history) && ClockAdvances(st.history, reqs)
    ensures Chronological(Replay(st, reqs, decode).history)
    decreases |reqs|
  {
    if |reqs| > 0 {
      StepChronological(st, reqs[0], decode);
      ClockAdvancesTail(st, reqs, decode);
      ReplayChronological(Step(st, reqs[0], decode), reqs[1..], decode);
    }
  }

  /** Filing and then a run, all with an advancing clock, leave the history
      chronological. */
  lemma FiledRunChronological(st: Store, header: Option<string>, decode: string -> Option<Claims>,
                              body: Body, now: int, reqs: seq<Request>)
    requires Chronological(st.history)
    requires ClockAdvances(st.history, [File(header, body, now)] + reqs)
    ensures Chronological(Replay(CreateComplaint(st, header, decode, body, now).0, reqs, decode).history)
  {
    var run := [File(header, body, now)] + reqs;
    assert run[0] == File(header, body, now) && run[1..] == reqs;
    assert Replay(st, run, decode) == Replay(CreateComplaint(st, header, decode, body, now).0, reqs, decode);
    ReplayChronological(st, run, decode);
  }

  /** A complaint filed and then put through a run whose clock advances is
      shown by GET with its history in insertion order: one entry for the
      creation plus one per accepted transition, chained status to status
      and ending at the complaint's current status. */
  lemma FetchShowsStatus(st: Store, header: Option<string>, decode: string -> Option<Claims>,
                         body: Body, now: int, reqs: seq<Request>, reader: Option<string>)
    requires Valid(st) && Chronological(st.history)
    requires Authorize(header, [Outlet], decode).Ok?
    requires ClockAdvances(st.history, [File(header, body, now)] + reqs)
    ensures var st1 := CreateComplaint(st, header, decode, body, now).0;
      var id := CreateComplaint(st, header, decode, body, now).1.value.0;
      var fin := Replay(st1, reqs, decode);
      var g := GetComplaint(fin, reader, decode, id);
      && (Authorize(reader, [], decode).Ok? ==> g.Ok?)
      && (g.Ok? ==>
        && g.value.1 == Trail(fin.history, id)
        && |g.value.1| == 1 + TransitionCount(st1, reqs, decode, id)
        && Reconstructs(g.value.1, g.value.0.status))
  {
    var st1 := CreateComplaint(st, header, decode, body, now).0;
    var id := CreateComplaint(st, header, decode, body, now).1.value.0;
    var fin := Replay(st1, reqs, decode);
    FiledRunChronological(st, header, decode, body, now, reqs);
    FiledThenTransitioned(st, header, decode, body, now, reqs);
    assert id in fin.complaints;
    StepPreservesValid(st, File(header, body, now), decode);
    ReplayPreservesValid(st1, reqs, decode);
    GetShowsTrail(fin, reader, decode, id);
  }
}

=== FILE: login.dfy ===
/** `POST /api/auth/login`. Password hashing and token signing are
    parameters: `matches(password, hash)` stands for the salted hash
    comparison, `sign(claims)` for issuing the eight-hour session token. */
module Login {
  import opened Common
  import opened Gate
  import opened Decimal

  /** A row of the `users` table. */
  datatype User = User(id: int, name: string, email: string, passwordHash: string, role: string)

  /** What a successful login answers: the token and the user without the
      password hash. */
  datatype Session = Session(token: string, id: int, name: string, email: string, role: string)

  /** The first user with this email (`rows[0]` of the lookup). */
  function FindByEmail(users: seq<User>, email: string): (r: Option<nat>)
    ensures r.Some? ==> r.value < |users| && users[r.value].email == email
    ensures r.Some? ==> forall j :: 0 <= j < r.value ==> users[j].email != email
    ensures r.None? ==> forall j :: 0 <= j < |users| ==> users[j].email != email
  {
    if |users| == 0 then None
    else if users[0].email == email then Some(0)
    else match FindByEmail(users[1..], email)
      case None => None
      case Some(i) => Some(i + 1)
  }

  /** The text the database driver sends for a query parameter: a string
      as it is, a number as `String(n)`, a boolean as `true` or `false`.
      Null has none, and neither has an array in this model. */
  function ParamText(v: Value): (r: Option<string>)
    ensures v.Text? ==> r == Some(v.s)
    ensures v.Num? ==> r == Some(IntToString(v.n))
    ensures v.Bool? ==> r == Some(if v.b then "true" else "false")
    ensures v.Null? || v.Items? ==> r == None
  {
    match v
    case Text(s) => Some(s)
    case Num(n) => Some(IntToString(n))
    case Bool(b) => Some(if b then "true" else "false")
    case _ => None
  }

  /** The login handler. A missing email or password is a 400; an unknown
      email a 404; a password that does not match a 401. A password that is
      not a string makes the hash comparison throw, answered with 500. An
      email that is a number or a boolean is looked up by the text the
      driver sends for it. */
  function LogIn(users: seq<User>, body: Body, matches: (string, string) -> bool,
                 sign: Claims -> string): (r: Outcome<Session>)
    ensures !Truthy(Field(body, "email")) || !Truthy(Field(body, "password")) ==> r == Err(BadRequest)
    ensures var key := ParamText(Field(body, "email")); var password := Field(body, "password");
      r.Ok? <==>
        && Truthy(Field(body, "email")) && key.Some? && FindByEmail(users, key.value).Some?
        && Truthy(password) && password.Text?
        && matches(password.s, users[FindByEmail(users, key.value).value].passwordHash)
    ensures r.Ok? ==>
      var u := users[FindByEmail(users, ParamText(Field(body, "email")).value).value];
      r.value == Session(sign(Claims(u.id, u.role, u.name)), u.id, u.name, u.email, u.role)
    ensures var key := ParamText(Field(body, "email"));
      r == Err(NotFound) <==>
        && Truthy(Field(body, "email")) && Truthy(Field(body, "password"))
        && (key.None? || FindByEmail(users, key.value).None?)
    ensures var key := ParamText(Field(body, "email")); var password := Field(body, "password");
      Truthy(Field(body, "email")) && key.Some? && FindByEmail(users, key.value).Some?
      && Truthy(password) && password.Text?
      && !matches(password.s, users[FindByEmail(users, key.value).value].passwordHash)
      ==> r == Err(WrongPassword)
    ensures var key := ParamText(Field(body, "email")); var password := Field(body, "password");
      Truthy(Field(body, "email")) && key.Some? && FindByEmail(users, key.value).Some?
      && Truthy(password) && !password.Text?
      ==> r == Err(ServerError)
  {
    var email := Field(body, "email");
    var password := Field(body, "password");
    if !Truthy(email) || !Truthy(password) then Err(BadRequest)
    else match ParamText(email)
      case None => Err(NotFound)
      case Some(key) =>
        match FindByEmail(users, key)
        case None => Err(NotFound)
        case Some(i) =>
          var u := users[i];
          if !password.Text? then Err(ServerError)
          else if !matches(password.s, u.passwordHash) then Err(WrongPassword)
          else Ok(Session(sign(Claims(u.id, u.role, u.name)), u.id, u.name, u.email, u.role))
  }

  /** A number sent as the email is looked up by its numeral: the handler
      answers exactly as it does for the numeral sent as text. */
  lemma NumericEmailIsItsNumeral(users: seq<User>, n: int, password: Value,
                                 matches: (string, string) -> bool, sign: Claims -> string)
    requires n != 0
    ensures LogIn(users, map["email" := Num(n), "password" := password], matches, sign)
         == LogIn(users, map["email" := Text(IntToString(n)), "password" := password], matches, sign)
  {
    assert IntToString(n) != "" by {
      if n >= 0 { assert ParseNat(IntToString(n)).Some?; }
    }
  }

  /** A user stored with the email "5" is found by the number 5: the
      handler goes on to the password check instead of answering 404. */
  lemma NumberFindsNumeralEmail(matches: (string, string) -> bool, sign: Claims -> string)
    ensures var users := [User(1, "n", "5", "h", "Admin")];
      var body := map["email" := Num(5), "password" := Text("pw")];
      && LogIn(users, body, matches, sign) != Err(NotFound)
      && (matches("pw", "h") ==> LogIn(users, body, matches, sign).Ok?)
      && (!matches("pw", "h") ==> LogIn(users, body, matches, sign) == Err(WrongPassword))
  {
    assert IntToString(5) == "5";
  }

  /** A known email with a wrong password is told apart from an unknown
      email: 401 rather than 404, and no token. */
  lemma WrongPasswordIsNotUnknownUser(users: seq<User>, email: string, password: string,
                                      matches: (string, string) -> bool, sign: Claims -> string)
    requires email != "" && password != ""
    requires FindByEmail(users, email).Some?
    requires !matches(password, users[FindByEmail(users, email).value].passwordHash)
    ensures LogIn(users, map["email" := Text(email), "password" := Text(password)], matches, sign)
            == Err(WrongPassword)
  {
  }
}

=== FILE: policy.dfy ===
/** The transition policy of the status-update endpoint: a fixed table from
    role to the statuses that role may set. The table gates by role only;
    the complaint's current status plays no part. */
module Policy {
  import opened Common

  // Role names as they appear in user records and session tokens.
  const Outlet := "Outlet"
  const SalesRep := "Sales Rep"
  const FgsWarehouse := "FGS Warehouse"
  const QcLab := "QC Lab"
  const Finance := "Finance"
  const Admin := "Admin"
  const Exco := "EXCO"

  // Complaint statuses.
  const PendingValidation := "Pending Validation"
  const Validated := "Validated"
  const ForwardedToFgs := "Forwarded to FGS"
  const ForwardedToQc := "Forwarded to QC"
  const ReplacementApproved := "Replacement Approved"
  const QcReportUploaded := "QC Report Uploaded"
  const ErpUpdated := "ERP Updated"
  const Closed := "Closed"

  /** The table: only these five roles have an entry. */
  const Transitions: map<string, seq<string>> := map[
    SalesRep := [Validated, ForwardedToFgs],
    FgsWarehouse := [ForwardedToQc, ReplacementApproved],
    QcLab := [QcReportUploaded],
    Finance := [ErpUpdated],
    Admin := [Closed]
  ]

  /** The check made before the store is touched: the requested status is
      truthy, the role has an entry, and the entry lists the status. A
      status that is not a string is never listed. */
  predicate MaySet(role: string, status: Value)
  {
    Truthy(status) && role in Transitions && status.Text? && status.s in Transitions[role]
  }

  /** The decision over the whole role-by-status product, spelled out as
      the seven permitted pairs. */
  lemma MaySetExactly(role: string, status: Value)
    ensures MaySet(role, status) <==>
      status.Text? &&
      (|| (role == SalesRep && status.s == Validated)
       || (role == SalesRep && status.s == ForwardedToFgs)
       || (role == FgsWarehouse && status.s == ForwardedToQc)
       || (role == FgsWarehouse && status.s == ReplacementApproved)
       || (role == QcLab && status.s == QcReportUploaded)
       || (role == Finance && status.s == ErpUpdated)
       || (role == Admin && status.s == Closed))
  {
  }

  /** Roles without an entry (Outlet, EXCO, and every other string) may set
      nothing. */
  lemma UnlistedRolesSetNothing(role: string, status: Value)
    requires role !in {SalesRep, FgsWarehouse, QcLab, Finance, Admin}
    ensures !MaySet(role, status)
  {
  }

  /** A missing, null or empty status is refused whatever the role. */
  lemma FalsyStatusRefused(role: string, status: Value)
    requires !Truthy(status)
    ensures !MaySet(role, status)
  {
  }

  /** No two roles may set the same status: each status has one owner. */
  lemma OwnerIsUnique(r1: string, r2: string, status: Value)
    requires MaySet(r1, status) && MaySet(r2, status)
    ensures r1 == r2
  {
  }

  /** No role may put a complaint back to its initial status. */
  lemma NoReturnToPending(role: string)
    ensures !MaySet(role, Text(PendingValidation))
  {
  }
}

=== FILE: sorting.dfy ===
/** Ordering result rows by an integer key, the effect of SQL `ORDER BY`.
    A stable insertion sort stands for the database's sort; SQL leaves the
    order of rows with equal keys unspecified, and the contracts below
    promise nothing about it either. */
module Sorting {

  /** Non-decreasing by `key`. */
  predicate SortedBy<T>(s: seq<T>, key: T -> int)
  {
    forall i, j :: 0 <= i < j < |s| ==> key(s[i]) <= key(s[j])
  }

  /** Inserts `x` before the first element whose key is not smaller. */
  function InsertBy<T>(x: T, s: seq<T>, key: T -> int): (r: seq<T>)
    requires SortedBy(s, key)
    ensures SortedBy(r, key)
    ensures multiset(r) == multiset(s) + multiset{x}
    ensures |r| == |s| + 1
    ensures r[0] == x || (|s| > 0 && r[0] == s[0])
  {
    if |s| == 0 || key(x) <= key(s[0]) then [x] + s
    else
      var tail := InsertBy(x, s[1..], key);
      assert s == [s[0]] + s[1..];
      [s[0]] + tail
  }

  /** A permutation of `s` that is sorted by `key`. */
  function SortBy<T>(s: seq<T>, key: T -> int): (r: seq<T>)
    ensures SortedBy(r, key)
    ensures multiset(r) == multiset(s)
    ensures |r| == |s|
  {
    if |s| == 0 then []
    else
      assert s == [s[0]] + s[1..];
      InsertBy(s[0], SortBy(s[1..], key), key)
  }

  /** Elements survive sorting, and nothing new appears. */
  lemma SortByMembers<T>(s: seq<T>, key: T -> int, x: T)
    ensures x in SortBy(s, key) <==> x in s
  {
    var r := SortBy(s, key);
    assert x in r <==> x in multiset(r);
    assert x in s <==> x in multiset(s);
  }

  /** No element occurs twice. */
  predicate Distinct<T(==)>(s: seq<T>)
  {
    forall i, j :: 0 <= i < j < |s| ==> s[i] != s[j]
  }

  lemma {:induction false} DistinctCountsAtMostOne<T>(s: seq<T>, x: T)
    requires Distinct(s)
    ensures multiset(s)[x] <= 1
  {
    if |s| > 0 {
      assert s == [s[0]] + s[1..];
      assert Distinct(s[1..]) by {
        forall i, j | 0 <= i < j < |s[1..]| ensures s[1..][i] != s[1..][j] {
          assert s[1..][i] == s[i + 1] && s[1..][j] == s[j + 1];
        }
      }
      DistinctCountsAtMostOne(s[1..], x);
      if s[0] == x {
        assert x !in s[1..] by {
          forall k | 0 <= k < |s[1..]| ensures s[1..][k] != x {
            assert s[1..][k] == s[k + 1];
          }
        }
      }
    }
  }

  /** An element at two positions is counted at least twice. */
  lemma RepeatCountsTwice<T>(s: seq<T>, i: nat, j: nat)
    requires i < j < |s| && s[i] == s[j]
    ensures multiset(s)[s[i]] >= 2
  {
    assert s == s[..j] + s[j..];
    assert s[i] == s[..j][i];
    assert s[j] == s[j..][0];
    assert multiset(s) == multiset(s[..j]) + multiset(s[j..]);
  }

  /** Sorting a list without repeats gives a list without repeats. */
  lemma SortByKeepsDistinct<T>(s: seq<T>, key: T -> int)
    requires Distinct(s)
    ensures Distinct(SortBy(s, key))
  {
    var r := SortBy(s, key);
    forall i, j | 0 <= i < j < |r| ensures r[i] != r[j] {
      if r[i] == r[j] {
        RepeatCountsTwice(r, i, j);
        DistinctCountsAtMostOne(s, r[i]);
        assert false;
      }
    }
  }

  /** Strictly increasing by `key`: no two elements tie. */
  predicate StrictlySortedBy<T>(s: seq<T>, key: T -> int)
  {
    forall i, j :: 0 <= i < j < |s| ==> key(s[i]) < key(s[j])
  }

  /** A list already in strictly increasing key order is left as it is:
      without ties there is only one sorted order. */
  lemma {:induction false} SortByStrictlySorted<T>(s: seq<T>, key: T -> int)
    requires StrictlySortedBy(s, key)
    ensures SortBy(s, key) == s
  {
    if |s| > 0 {
      var tail := s[1..];
      assert StrictlySortedBy(tail, key) by {
        forall i, j | 0 <= i < j < |tail| ensures key(tail[i]) < key(tail[j]) {
          assert tail[i] == s[i + 1] && tail[j] == s[j + 1];
        }
      }
      SortByStrictlySorted(tail, key);
      assert SortBy(s, key) == InsertBy(s[0], tail, key);
      if |tail| > 0 {
        assert key(s[0]) <= key(tail[0]) by {
          assert tail[0] == s[1];
        }
      }
      assert s == [s[0]] + tail;
    }
  }
}

=== FILE: store.dfy ===
/** The complaint store as abstract state: the `complaints` table as a map
    from serial id to row, and the `complaint_history` table as an
    append-only sequence in insertion order. */
module ComplaintStore {
  import opened Common
  import opened Policy
  import ComplaintCodes

  /** A complaint row. `status` is kept apart because the workflow reads and
      writes it; every other column (`complaint_code`, `sales_rep_id`,
      `created_at`, `outlet_name`, ...) lives in `columns`. The serial `id`
      is the key the row is stored under. */
  datatype Complaint = Complaint(status: string, columns: map<string, Value>)

  /** A `complaint_history` row. `statusFrom` is `None` for the entry written
      when the complaint is created. */
  datatype HistoryEntry = HistoryEntry(
    complaintId: nat,
    changedBy: int,
    statusFrom: Option<string>,
    statusTo: string,
    remarks: Value,
    createdAt: int)

  /** `schema` is the set of column names of the `complaints` table; the
      store refuses an update naming any other column. */
  datatype Store = Store(
    complaints: map<nat, Complaint>,
    history: seq<HistoryEntry>,
    nextId: nat,
    schema: set<string>)

  /** A column of a row; a column never written reads as NULL. */
  function Column(c: Complaint, name: string): Value
  {
    Field(c.columns, name)
  }

  /** The `created_at` timestamp of a row, as an integer clock value, or
      `None` when the column holds no timestamp (SQL NULL). */
  function CreatedAt(c: Complaint): Option<int>
  {
    match Column(c, "created_at")
    case Num(t) => Some(t)
    case _ => None
  }

  /** The sequence number read back from a row's `complaint_code`. */
  function CodeNumber(c: Complaint): Option<nat>
  {
    match Column(c, "complaint_code")
    case Text(code) => ComplaintCodes.ParseCode(code)
    case _ => None
  }

  /** The history entries of one complaint, in insertion order. */
  function Trail(h: seq<HistoryEntry>, id: nat): (t: seq<HistoryEntry>)
    ensures |t| <= |h|
    ensures forall i :: 0 <= i < |t| ==> t[i].complaintId == id
  {
    if |h| == 0 then []
    else
      var last := h[|h| - 1];
      Trail(h[..|h| - 1], id) + (if last.complaintId == id then [last] else [])
  }

  /** Appending one entry extends exactly the trail of its complaint. */
  lemma TrailAppend(h: seq<HistoryEntry>, e: HistoryEntry, id: nat)
    ensures Trail(h + [e], id) == Trail(h, id) + (if e.complaintId == id then [e] else [])
  {
    assert (h + [e])[..|h|] == h;
  }

  /** Entries for a complaint exist only if some entry names it. */
  lemma {:induction false} TrailEmpty(h: seq<HistoryEntry>, id: nat)
    requires forall i :: 0 <= i < |h| ==> h[i].complaintId != id
    ensures Trail(h, id) == []
  {
    if |h| > 0 {
      TrailEmpty(h[..|h| - 1], id);
    }
  }

  /** Entry `k` of a trail starts at the status entry `k - 1` ended at. */
  predicate Follows(t: seq<HistoryEntry>, k: nat)
    requires 0 < k < |t|
  {
    t[k].statusFrom == Some(t[k - 1].statusTo)
  }

  /** An audit trail that reconstructs the whole lifecycle: it opens with the
      creation entry, each entry starts where the previous one ended, and
      the last one ends at the current status. */
  predicate Reconstructs(t: seq<HistoryEntry>, status: string)
  {
    && 1 <= |t|
    && t[0].statusFrom == None
    && t[0].statusTo == PendingValidation
    && (forall k :: 0 < k < |t| ==> Follows(t, k))
    && t[|t| - 1].statusTo == status
  }

  /** Serial ids run ahead of every key. */
  predicate KeysBelowNext(st: Store)
  {
    forall id :: id in st.complaints ==> id < st.nextId
  }

  /** Every history entry belongs to a stored complaint. */
  predicate HistoryOwned(st: Store)
  {
    forall i :: 0 <= i < |st.history| ==> st.history[i].complaintId in st.complaints
  }

  /** Every complaint's trail reconstructs its status. */
  predicate TrailsReconstruct(st: Store)
  {
    forall id :: id in st.complaints ==> Reconstructs(Trail(st.history, id), st.complaints[id].status)
  }

  /** The store's invariant. */
  predicate Valid(st: Store)
  {
    KeysBelowNext(st) && HistoryOwned(st) && TrailsReconstruct(st)
  }

  /** The next serial id has no history yet. */
  lemma NextIdHasNoTrail(st: Store)
    requires KeysBelowNext(st) && HistoryOwned(st)
    ensures Trail(st.history, st.nextId) == []
  {
    forall i | 0 <= i < |st.history| ensures st.history[i].complaintId != st.nextId {
      assert st.history[i].complaintId in st.complaints;
    }
    TrailEmpty(st.history, st.nextId);
  }

  /** Appending an entry for `id` leaves every other trail as it was. */
  lemma OtherTrailsUnchanged(h: seq<HistoryEntry>, e: HistoryEntry)
    ensures forall x :: x != e.complaintId ==> Trail(h + [e], x) == Trail(h, x)
  {
    forall x | x != e.complaintId ensures Trail(h + [e], x) == Trail(h, x) {
      TrailAppend(h, e, x);
    }
  }

  /** Every old entry still has its complaint after one more is added. */
  lemma AddKeepsHistoryOwned(st: Store, c: Complaint, e: HistoryEntry)
    requires HistoryOwned(st) && e.complaintId == st.nextId
    ensures HistoryOwned(Store(st.complaints[st.nextId := c], st.history + [e], st.nextId + 1, st.schema))
  {
    var st' := Store(st.complaints[st.nextId := c], st.history + [e], st.nextId + 1, st.schema);
    forall i | 0 <= i < |st'.history| ensures st'.history[i].complaintId in st'.complaints {
      if i < |st.history| {
        assert st'.history[i] == st.history[i];
      }
    }
  }

  /** A new complaint's creation entry is its whole trail, and every other
      trail stays as it was. */
  lemma AddKeepsTrails(st: Store, e: HistoryEntry)
    requires KeysBelowNext(st) && HistoryOwned(st)
    requires e.complaintId == st.nextId
    ensures Trail(st.history + [e], st.nextId) == [e]
    ensures forall x :: x != st.nextId ==> Trail(st.history + [e], x) == Trail(st.history, x)
  {
    NextIdHasNoTrail(st);
    TrailAppend(st.history, e, st.nextId);
    OtherTrailsUnchanged(st.history, e);
  }

  /** With those trails, every complaint's status is still reconstructed:
      old ones as before, the new one from its creation entry. */
  lemma AddReconstructs(st: Store, c: Complaint, e: HistoryEntry)
    requires TrailsReconstruct(st)
    requires Trail(st.history + [e], st.nextId) == [e]
    requires forall x :: x != st.nextId ==> Trail(st.history + [e], x) == Trail(st.history, x)
    requires e.statusFrom == None && e.statusTo == PendingValidation && c.status == PendingValidation
    ensures TrailsReconstruct(Store(st.complaints[st.nextId := c], st.history + [e], st.nextId + 1, st.schema))
  {
    var st' := Store(st.complaints[st.nextId := c], st.history + [e], st.nextId + 1, st.schema);
    forall x | x in st'.complaints
      ensures Reconstructs(Trail(st'.history, x), st'.complaints[x].status)
    {
      if x == st.nextId {
        assert Trail(st'.history, x) == [e];
      } else {
        assert st'.complaints[x] == st.complaints[x];
        assert Trail(st'.history, x) == Trail(st.history, x);
      }
    }
  }

  /** Adding a complaint under the next serial id together with its
      creation entry keeps the store valid, and gives it a one-entry trail. */
  lemma AddKeepsValid(st: Store, c: Complaint, e: HistoryEntry)
    requires Valid(st)
    requires e.complaintId == st.nextId && e.statusFrom == None
    requires e.statusTo == PendingValidation && c.status == PendingValidation
    ensures var st' := Store(st.complaints[st.nextId := c], st.history + [e], st.nextId + 1, st.schema);
      Valid(st') && Trail(st'.history, st.nextId) == [e]
      && forall x :: x != st.nextId ==> Trail(st'.history, x) == Trail(st.history, x)
  {
    var st' := Store(st.complaints[st.nextId := c], st.history + [e], st.nextId + 1, st.schema);
    AddKeepsHistoryOwned(st, c, e);
    AddKeepsTrails(st, e);
    AddReconstructs(st, c, e);
    assert KeysBelowNext(st') by {
      forall id | id in st'.complaints ensures id < st'.nextId {
        if id != st.nextId {
          assert id in st.complaints;
        }
      }
    }
  }

  /** Replacing a stored complaint together with an entry that starts at
      its old status and ends at its new one keeps the store valid, and
      extends only that complaint's trail. */
  lemma {:induction false} ReplaceKeepsValid(st: Store, id: nat, c: Complaint, e: HistoryEntry)
    requires Valid(st) && id in st.complaints
    requires e.complaintId == id && e.statusFrom == Some(st.complaints[id].status)
    requires e.statusTo == c.status
    ensures var st' := st.(complaints := st.complaints[id := c], history := st.history + [e]);
      Valid(st') && Trail(st'.history, id) == Trail(st.history, id) + [e]
      && forall x :: x != id ==> Trail(st'.history, x) == Trail(st.history, x)
  {
    var st' := st.(complaints := st.complaints[id := c], history := st.history + [e]);
    TrailAppend(st.history, e, id);
    forall x | x != id ensures Trail(st'.history, x) == Trail(st.history, x) {
      TrailAppend(st.history, e, x);
    }
    assert KeysBelowNext(st');
    assert HistoryOwned(st') by {
      forall i | 0 <= i < |st'.history| ensures st'.history[i].complaintId in st'.complaints {
        if i < |st.history| {
          assert st'.history[i] == st.history[i];
        }
      }
    }
    assert TrailsReconstruct(st') by {
      forall x | x in st'.complaints
        ensures Reconstructs(Trail(st'.history, x), st'.complaints[x].status)
      {
        if x == id {
          var t := Trail(st.history, id);
          assert Reconstructs(t, st.complaints[id].status);
          var t' := t + [e];
          forall k | 0 < k < |t'| ensures Follows(t', k) {
            if k < |t| {
              assert Follows(t, k);
            }
          }
        } else {
          assert st'.complaints[x] == st.complaints[x];
        }
      }
    }
  }

  /** Codes are numbered 1 to the number of complaints, each number once. */
  predicate CodesSequential(st: Store)
  {
    && (forall id :: id in st.complaints ==>
          CodeNumber(st.complaints[id]).Some?
          && 1 <= CodeNumber(st.complaints[id]).value <= |st.complaints|)
    && (forall i, j :: i in st.complaints && j in st.complaints && i != j ==>
          CodeNumber(st.complaints[i]) != CodeNumber(st.complaints[j]))
  }

  /** Distinct numbers mean distinct code texts. */
  lemma CodesDistinct(st: Store, i: nat, j: nat)
    requires CodesSequential(st)
    requires i in st.complaints && j in st.complaints && i != j
    ensures Column(st.complaints[i], "complaint_code") != Column(st.complaints[j], "complaint_code")
  {
  }

  /** Adding a complaint under a fresh key with the number one past the
      count keeps the numbering sequential; the new number is larger than
      every number already given out. */
  lemma AddKeepsCodesSequential(st: Store, c: Complaint)
    requires KeysBelowNext(st) && CodesSequential(st)
    requires CodeNumber(c) == Some(|st.complaints| + 1)
    ensures CodesSequential(st.(complaints := st.complaints[st.nextId := c]))
    ensures forall x :: x in st.complaints ==> CodeNumber(st.complaints[x]).value < CodeNumber(c).value
  {
    var id := st.nextId;
    var st' := st.(complaints := st.complaints[id := c]);
    assert id !in st.complaints;
    assert |st'.complaints| == |st.complaints| + 1;
    forall x | x in st'.complaints
      ensures CodeNumber(st'.complaints[x]).Some?
      ensures 1 <= CodeNumber(st'.complaints[x]).value <= |st'.complaints|
    {
      if x != id {
        assert st'.complaints[x] == st.complaints[x];
      }
    }
  }

  /** Replacing a row by one with the same code keeps the numbering. */
  lemma ReplaceKeepsCodesSequential(st: Store, id: nat, c: Complaint)
    requires CodesSequential(st) && id in st.complaints
    requires CodeNumber(c) == CodeNumber(st.complaints[id])
    ensures CodesSequential(st.(complaints := st.complaints[id := c]))
  {
    var st' := st.(complaints := st.complaints[id := c]);
    assert st'.complaints.Keys == st.complaints.Keys;
    assert |st'.complaints| == |st.complaints|;
    forall x | x in st'.complaints ensures CodeNumber(st'.complaints[x]) == CodeNumber(st.complaints[x]) {
      if x != id {
        assert st'.complaints[x] == st.complaints[x];
      }
    }
  }

  /** Each entry is stamped strictly later than every entry before it. */
  predicate Chronological(h: seq<HistoryEntry>)
  {
    forall i, j :: 0 <= i < j < |h| ==> h[i].createdAt < h[j].createdAt
  }

  /** Every entry of `h` is stamped before `t`. */
  predicate StampedBefore(h: seq<HistoryEntry>, t: int)
  {
    forall i :: 0 <= i < |h| ==> h[i].createdAt < t
  }

  /** An entry stamped after the whole history keeps it chronological. */
  lemma AppendChronological(h: seq<HistoryEntry>, e: HistoryEntry)
    requires Chronological(h) && StampedBefore(h, e.createdAt)
    ensures Chronological(h + [e])
    ensures forall t :: StampedBefore(h, t) && e.createdAt < t ==> StampedBefore(h + [e], t)
  {
    var h' := h + [e];
    forall i, j | 0 <= i < j < |h'| ensures h'[i].createdAt < h'[j].createdAt {
      assert h'[i] == h[i];
      if j < |h| {
        assert h'[j] == h[j];
      }
    }
    forall t | StampedBefore(h, t) && e.createdAt < t ensures StampedBefore(h', t) {
      forall i | 0 <= i < |h'| ensures h'[i].createdAt < t {
        if i < |h| {
          assert h'[i] == h[i];
        }
      }
    }
  }

  /** A complaint's trail of a chronological history is chronological, and
      stamped before any time the whole history is. */
  lemma {:induction false} TrailChronological(h: seq<HistoryEntry>, id: nat)
    requires Chronological(h)
    ensures Chronological(Trail(h, id))
    ensures forall t :: StampedBefore(h, t) ==> StampedBefore(Trail(h, id), t)
  {
    if |h| > 0 {
      var init := h[..|h| - 1];
      var last := h[|h| - 1];
      assert Chronological(init) by {
        forall i, j | 0 <= i < j < |init| ensures init[i].createdAt < init[j].createdAt {
          assert init[i] == h[i] && init[j] == h[j];
        }
      }
      assert StampedBefore(init, last.createdAt) by {
        forall i | 0 <= i < |init| ensures init[i].createdAt < last.createdAt {
          assert init[i] == h[i];
        }
      }
      TrailChronological(init, id);
      forall t | StampedBefore(h, t) ensures StampedBefore(init, t) {
        forall i | 0 <= i < |init| ensures init[i].createdAt < t {
          assert init[i] == h[i];
        }
      }
    }
  }
}

=== FILE: strings.dfy ===
/** The two JavaScript string operations the core relies on:
    `s.split(' ')` with a one-character separator, and `s.trim()`. */
module Strings {

  /** Joining parts back together with the separator between them. */
  function Join(parts: seq<string>, sep: char): string
  {
    if |parts| == 0 then ""
    else if |parts| == 1 then parts[0]
    else parts[0] + [sep] + Join(parts[1..], sep)
  }

  /** `s.split(sep)`: the maximal runs between separators, empty runs
      included, so there is always at least one part. */
  function Split(s: string, sep: char): (parts: seq<string>)
    ensures 1 <= |parts|
    ensures forall i :: 0 <= i < |parts| ==> sep !in parts[i]
  {
    if |s| == 0 then [""]
    else
      var rest := Split(s[1..], sep);
      if s[0] == sep then [""] + rest
      else [[s[0]] + rest[0]] + rest[1..]
  }

  /** Splitting loses nothing: joining the parts gives the string back. */
  lemma {:induction false} JoinSplit(s: string, sep: char)
    ensures Join(Split(s, sep), sep) == s
  {
    if |s| > 0 {
      var rest := Split(s[1..], sep);
      JoinSplit(s[1..], sep);
      if s[0] == sep {
        assert ([""] + rest)[1..] == rest;
      } else {
        var parts := [[s[0]] + rest[0]] + rest[1..];
        if |rest| > 1 {
          assert parts[1..] == rest[1..];
          assert Join(rest, sep) == rest[0] + [sep] + Join(rest[1..], sep);
        }
      }
    }
  }

  /** Splitting a string with no separator in it gives that string alone. */
  lemma {:induction false} SplitNoSeparator(s: string, sep: char)
    requires sep !in s
    ensures Split(s, sep) == [s]
  {
    if |s| > 0 {
      assert s[0] in s;
      assert forall c :: c in s[1..] ==> c in s;
      SplitNoSeparator(s[1..], sep);
      assert [s[0]] + s[1..] == s;
    }
  }

  /** A separator-free prefix becomes part of the first piece. */
  lemma {:induction false} SplitPrefix(w: string, rest: string, sep: char)
    requires sep !in w
    ensures Split(w + rest, sep)
            == [w + Split(rest, sep)[0]] + Split(rest, sep)[1..]
  {
    if |w| == 0 {
      var r := Split(rest, sep);
      assert w + rest == rest;
      assert w + r[0] == r[0];
      assert r == [r[0]] + r[1..];
    } else {
      var r := Split(rest, sep);
      assert w[0] in w;
      assert forall c :: c in w[1..] ==> c in w;
      assert (w + rest)[0] == w[0];
      assert (w + rest)[1..] == w[1..] + rest;
      SplitPrefix(w[1..], rest, sep);
      assert [w[0]] + (w[1..] + r[0]) == w + r[0];
    }
  }

  /** `w + sep + t` with no separator in `w` or `t` splits into `[w, t]`. */
  lemma SplitTwoWords(w: string, t: string, sep: char)
    requires sep !in w && sep !in t
    ensures Split(w + [sep] + t, sep) == [w, t]
  {
    var rest := [sep] + t;
    assert w + [sep] + t == w + rest;
    SplitPrefix(w, rest, sep);
    assert rest[1..] == t;
    SplitNoSeparator(t, sep);
    assert Split(rest, sep) == [""] + [t];
    assert w + "" == w;
  }

  /** A separator-free word followed by the separator is the first part,
      and the rest splits on its own. */
  lemma SplitAfterWord(w: string, rest: string, sep: char)
    requires sep !in w
    ensures Split(w + [sep] + rest, sep) == [w] + Split(rest, sep)
  {
    var r := [sep] + rest;
    assert w + [sep] + rest == w + r;
    SplitPrefix(w, r, sep);
    assert r[1..] == rest;
    assert Split(r, sep) == [""] + Split(rest, sep);
    assert w + "" == w;
  }

  /** The first part runs up to the first separator: a separator-free word
      followed by nothing or by a separator is the first part. */
  lemma FirstPart(w: string, rest: string, sep: char)
    requires sep !in w
    requires rest == "" || rest[0] == sep
    ensures Split(w + rest, sep)[0] == w
  {
    SplitPrefix(w, rest, sep);
    if rest != "" {
      assert Split(rest, sep) == [""] + Split(rest[1..], sep);
    }
    assert w + "" == w;
  }

  /** The characters `String.prototype.trim` removes: the ECMAScript
      WhiteSpace and LineTerminator characters. */
  predicate IsJsWhitespace(c: char)
  {
    || c == '\t' || c == '\n' || c == '\U{000B}' || c == '\U{000C}' || c == '\r'
    || c == ' ' || c == '\U{00A0}' || c == '\U{1680}'
    || ('\U{2000}' <= c <= '\U{200A}')
    || c == '\U{2028}' || c == '\U{2029}' || c == '\U{202F}'
    || c == '\U{205F}' || c == '\U{3000}' || c == '\U{FEFF}'
  }

  predicate AllWhitespace(s: string)
  {
    forall i :: 0 <= i < |s| ==> IsJsWhitespace(s[i])
  }

  function TrimStart(s: string): (r: string)
    ensures |r| <= |s| && r == s[|s| - |r|..]
    ensures AllWhitespace(s[..|s| - |r|])
    ensures |r| > 0 ==> !IsJsWhitespace(r[0])
  {
    if |s| > 0 && IsJsWhitespace(s[0]) then TrimStart(s[1..]) else s
  }

  function TrimEnd(s: string): (r: string)
    ensures |r| <= |s| && r == s[..|r|]
    ensures AllWhitespace(s[|r|..])
    ensures |r| > 0 ==> !IsJsWhitespace(r[|r| - 1])
  {
    if |s| > 0 && IsJsWhitespace(s[|s| - 1]) then TrimEnd(s[..|s| - 1]) else s
  }

  /** `s.trim()`: a slice of `s` that neither starts nor ends with
      whitespace, with only whitespace cut away on either side. */
  function Trim(s: string): (r: string)
    ensures exists i, j :: 0 <= i <= j <= |s| && r == s[i..j]
                           && AllWhitespace(s[..i]) && AllWhitespace(s[j..])
    ensures |r| > 0 ==> !IsJsWhitespace(r[0]) && !IsJsWhitespace(r[|r| - 1])
  {
    var t := TrimStart(s);
    var r := TrimEnd(t);
    var i := |s| - |t|;
    assert r == s[i..i + |r|];
    assert s[i + |r|..] == t[|r|..];
    r
  }

  /** A name is blank after trimming exactly when it is all whitespace. */
  lemma TrimEmptyIffBlank(s: string)
    ensures Trim(s) == "" <==> AllWhitespace(s)
  {
    var r := Trim(s);
    var i, j :| 0 <= i <= j <= |s| && r == s[i..j]
                && AllWhitespace(s[..i]) && AllWhitespace(s[j..]);
    if r == "" {
      forall k | 0 <= k < |s| ensures IsJsWhitespace(s[k]) {
        if k < i { assert s[k] == s[..i][k]; }
        else { assert s[k] == s[j..][k - j]; }
      }
    } else {
      assert s[i] == r[0];
    }
  }
}

=== FILE: workflow.dfy ===
/** The complaint endpoints of the server, each a pure function from the
    store and the request to the new store and the answer. A handler runs
    atomically: the model does not interleave requests. */
module Workflow {
  import opened Common
  import opened Policy
  import opened Gate
  import opened ComplaintStore
  import opened Sorting
  import ComplaintCodes

  /** Body fields copied into the new row by `POST /api/complaints`. */
  const FiledColumns: set<string> := {
    "outlet_name", "outlet_phone", "outlet_email", "sku", "batch_number",
    "quantity", "production_date", "expiry_date", "issue_type_id",
    "description", "photos"
  }

  const CreatedRemark := "Complaint created."

  /** The code the next complaint gets: one more than the current count. */
  function NextCode(st: Store): string
  {
    ComplaintCodes.FormatCode(|st.complaints| + 1)
  }

  /** The row inserted for a new complaint. */
  function NewRow(body: Body, code: string, filer: int, now: int): (c: Complaint)
    ensures c.status == PendingValidation
    ensures Column(c, "complaint_code") == Text(code)
    ensures Column(c, "sales_rep_id") == Num(filer)
    ensures CreatedAt(c) == Some(now)
    ensures forall k :: k in FiledColumns ==> Column(c, k) == Field(body, k)
    ensures c.columns.Keys == FiledColumns + {"complaint_code", "sales_rep_id", "created_at"}
  {
    var cols := map k | k in FiledColumns :: Field(body, k);
    Complaint(PendingValidation,
              cols["complaint_code" := Text(code)]["sales_rep_id" := Num(filer)]["created_at" := Num(now)])
  }

  /** Filing a complaint once the gate has admitted `user`: the next serial
      id, the next code, status Pending Validation, and the creation entry
      appended to the history. */
  function FileComplaint(st: Store, user: Claims, body: Body, now: int): (r: (Store, nat, Complaint))
    ensures var (st', id, c) := r;
      && id == st.nextId
      && st'.complaints == st.complaints[id := c]
      && st'.nextId == st.nextId + 1
      && st'.schema == st.schema
      && c.status == PendingValidation
      && Column(c, "complaint_code") == Text(ComplaintCodes.FormatCode(|st.complaints| + 1))
      && Column(c, "sales_rep_id") == Num(user.id)
      && CreatedAt(c) == Some(now)
      && (forall k :: k in FiledColumns ==> Column(c, k) == Field(body, k))
      && st'.history == st.history + [HistoryEntry(id, user.id, None, PendingValidation, Text(CreatedRemark), now)]
  {
    var id := st.nextId;
    var c := NewRow(body, NextCode(st), user.id, now);
    var entry := HistoryEntry(id, user.id, None, PendingValidation, Text(CreatedRemark), now);
    (st.(complaints := st.complaints[id := c], history := st.history + [entry], nextId := id + 1), id, c)
  }

  /** `POST /api/complaints`: only the Outlet role may file. Answered with
      201 and the new row. */
  function CreateComplaint(st: Store, header: Option<string>, decode: string -> Option<Claims>,
                           body: Body, now: int): (r: (Store, Outcome<(nat, Complaint)>))
    ensures Authorize(header, [Outlet], decode).Err? ==>
      r == (st, Err(Authorize(header, [Outlet], decode).failure))
    ensures r.1.Ok? <==> Authorize(header, [Outlet], decode).Ok?
    ensures r.1.Ok? ==>
      var user := Authorize(header, [Outlet], decode).value;
      var (st', id, c) := FileComplaint(st, user, body, now);
      user.role == Outlet && r == (st', Ok((id, c)))
  {
    match Authorize(header, [Outlet], decode)
    case Err(f) => (st, Err(f))
    case Ok(user) =>
      var (st', id, c) := FileComplaint(st, user, body, now);
      (st', Ok((id, c)))
  }

  /** The body fields other than `status` and `remarks`: the extra columns
      a status update writes. */
  function ExtraFields(body: Body): (extra: Body)
    ensures forall k :: k in extra <==> k in body && k != "status" && k != "remarks"
    ensures forall k :: k in extra ==> extra[k] == body[k]
  {
    body - {"status", "remarks"}
  }

  /** The store accepts the UPDATE when every extra field names a column of
      the table other than the key. */
  predicate UpdateAccepted(st: Store, extra: Body)
  {
    forall k :: k in extra ==> k in st.schema && k != "id"
  }

  /** `remarks || \`Status updated to ${status}\``. */
  function RemarksOrDefault(remarks: Value, status: string): (v: Value)
    ensures Truthy(remarks) ==> v == remarks
    ensures !Truthy(remarks) ==> v == Text("Status updated to " + status)
  {
    if Truthy(remarks) then remarks else Text("Status updated to " + status)
  }

  /** A status update once the gate has admitted `user`. The transition
      policy decides before the store is read; on success the status and the
      extra fields are written and one history entry is appended. Every
      refusal leaves the store as it was. */
  function ApplyTransition(st: Store, user: Claims, id: nat, body: Body, now: int)
    : (r: (Store, Outcome<Complaint>))
    ensures !MaySet(user.role, Field(body, "status")) ==> r == (st, Err(Forbidden))
    ensures MaySet(user.role, Field(body, "status")) && id !in st.complaints ==> r == (st, Err(NotFound))
    ensures r.1.Err? ==> r.0 == st
    ensures r.1.Ok? <==>
      MaySet(user.role, Field(body, "status")) && id in st.complaints && UpdateAccepted(st, ExtraFields(body))
    ensures r.1.Ok? ==>
      var target := Field(body, "status").s;
      var before := st.complaints[id];
      var c := r.1.value;
      && target in Transitions[user.role]
      && c.status == target
      && r.0.complaints == st.complaints[id := c]
      && r.0.nextId == st.nextId
      && r.0.schema == st.schema
      && c.columns.Keys == before.columns.Keys + ExtraFields(body).Keys
      && (forall k :: k in ExtraFields(body) ==> Column(c, k) == body[k])
      && (forall k :: k !in ExtraFields(body) ==> Column(c, k) == Column(before, k))
      && r.0.history == st.history + [HistoryEntry(id, user.id, Some(before.status), target,
                                                   RemarksOrDefault(Field(body, "remarks"), target), now)]
  {
    var status := Field(body, "status");
    if !MaySet(user.role, status) then (st, Err(Forbidden))
    else if id !in st.complaints then (st, Err(NotFound))
    else
      var extra := ExtraFields(body);
      if !UpdateAccepted(st, extra) then (st, Err(ServerError))
      else
        var current := st.complaints[id];
        var c := Complaint(status.s, current.columns + extra);
        var entry := HistoryEntry(id, user.id, Some(current.status), status.s,
                                  RemarksOrDefault(Field(body, "remarks"), status.s), now);
        (st.(complaints := st.complaints[id := c], history := st.history + [entry]), Ok(c))
  }

  /** `PATCH /api/complaints/:id/status`: open to every signed-in user;
      the role check is the transition policy's. */
  function UpdateStatus(st: Store, header: Option<string>, decode: string -> Option<Claims>,
                        id: nat, body: Body, now: int): (r: (Store, Outcome<Complaint>))
    ensures Authorize(header, [], decode).Err? ==>
      r == (st, Err(Authorize(header, [], decode).failure))
    ensures Authorize(header, [], decode).Ok? ==>
      r == ApplyTransition(st, Authorize(header, [], decode).value, id, body, now)
  {
    match Authorize(header, [], decode)
    case Err(f) => (st, Err(f))
    case Ok(user) => ApplyTransition(st, user, id, body, now)
  }

  /** Rows listed in strictly increasing key order, so no key twice. */
  predicate KeysIncreasing(rows: seq<(nat, Complaint)>)
  {
    forall i, j :: 0 <= i < j < |rows| ==> rows[i].0 < rows[j].0
  }

  /** The rows of `m` whose keys lie in `[lo, hi)`, in key order. */
  function RowsBetween(m: map<nat, Complaint>, lo: nat, hi: nat): (rows: seq<(nat, Complaint)>)
    ensures forall p :: p in rows <==> lo <= p.0 < hi && p.0 in m && m[p.0] == p.1
    ensures KeysIncreasing(rows)
    decreases hi - lo
  {
    if lo >= hi then []
    else
      var rest := RowsBetween(m, lo + 1, hi);
      assert forall k :: 0 <= k < |rest| ==> rest[k] in rest && lo < rest[k].0;
      (if lo in m then [(lo, m[lo])] else []) + rest
  }

  /** Sales Reps and Outlets see only what they filed; every other role
      sees every complaint. */
  predicate SeesAll(role: string)
  {
    role != SalesRep && role != Outlet
  }

  predicate Visible(user: Claims, c: Complaint)
  {
    SeesAll(user.role) || Column(c, "sales_rep_id") == Num(user.id)
  }

  /** Past the first row, keys stay increasing and exceed the first key. */
  lemma IncreasingTail(rows: seq<(nat, Complaint)>)
    requires |rows| > 0
    ensures KeysIncreasing(rows) ==> KeysIncreasing(rows[1..])
    ensures KeysIncreasing(rows) ==> forall p :: p in rows[1..] ==> rows[0].0 < p.0
  {
    forall p | p in rows[1..] && KeysIncreasing(rows) ensures rows[0].0 < p.0 {
      var n :| 0 <= n < |rows[1..]| && rows[1..][n] == p;
      assert rows[1..][n] == rows[n + 1];
    }
    forall i, j | 0 <= i < j < |rows[1..]| && KeysIncreasing(rows)
      ensures rows[1..][i].0 < rows[1..][j].0
    {
      assert rows[1..][i] == rows[i + 1] && rows[1..][j] == rows[j + 1];
    }
  }

  /** The rows satisfying `keep`, in their original order. */
  function RowsWhere(rows: seq<(nat, Complaint)>, keep: ((nat, Complaint)) -> bool): (r: seq<(nat, Complaint)>)
    ensures forall p :: p in r <==> p in rows && keep(p)
  {
    if |rows| == 0 then []
    else
      var rest := RowsWhere(rows[1..], keep);
      assert rows == [rows[0]] + rows[1..];
      (if keep(rows[0]) then [rows[0]] else []) + rest
  }

  /** Filtering keeps keys increasing. */
  lemma {:induction false} RowsWhereIncreasing(rows: seq<(nat, Complaint)>, keep: ((nat, Complaint)) -> bool)
    ensures KeysIncreasing(rows) ==> KeysIncreasing(RowsWhere(rows, keep))
  {
    if |rows| > 0 && KeysIncreasing(rows) {
      IncreasingTail(rows);
      RowsWhereIncreasing(rows[1..], keep);
      var rest := RowsWhere(rows[1..], keep);
      var r := RowsWhere(rows, keep);
      if keep(rows[0]) {
        assert r == [rows[0]] + rest;
        forall i, j | 0 <= i < j < |r| ensures r[i].0 < r[j].0 {
          assert r[j] == rest[j - 1] && r[j] in rest;
          if i > 0 {
            assert r[i] == rest[i - 1];
          }
        }
      } else {
        assert r == rest;
      }
    }
  }

  /** The rows the caller may see, in their original order. */
  function VisibleRows(rows: seq<(nat, Complaint)>, user: Claims): (r: seq<(nat, Complaint)>)
    ensures forall p :: p in r <==> p in rows && Visible(user, p.1)
    ensures KeysIncreasing(rows) ==> KeysIncreasing(r)
  {
    RowsWhereIncreasing(rows, (p: (nat, Complaint)) => Visible(user, p.1));
    RowsWhere(rows, (p: (nat, Complaint)) => Visible(user, p.1))
  }

  /** In a list with increasing keys, a key names one row. */
  lemma SameKeySameRow(rows: seq<(nat, Complaint)>, p: (nat, Complaint), q: (nat, Complaint))
    requires KeysIncreasing(rows) && p in rows && q in rows && p.0 == q.0
    ensures p == q
  {
    var a :| 0 <= a < |rows| && rows[a] == p;
    var b :| 0 <= b < |rows| && rows[b] == q;
    assert !(a < b) && !(b < a);
  }

  predicate Dated(p: (nat, Complaint))
  {
    CreatedAt(p.1).Some?
  }

  predicate Undated(p: (nat, Complaint))
  {
    CreatedAt(p.1).None?
  }

  /** `a` may come before `b` under `ORDER BY created_at DESC`, which in
      PostgreSQL puts NULL first: `a` is NULL, or both are timestamps and
      `a`'s is not the earlier. */
  predicate NoOlder(a: Complaint, b: Complaint)
  {
    CreatedAt(a).None? || (CreatedAt(b).Some? && CreatedAt(a).value >= CreatedAt(b).value)
  }

  /** Sort key for the timestamped rows under `created_at DESC`. */
  function NewestFirst(p: (nat, Complaint)): int
  {
    match CreatedAt(p.1)
    case Some(t) => -t
    case None => 0
  }

  /** No key occurs twice. */
  predicate KeysOnce(rows: seq<(nat, Complaint)>)
  {
    forall i, j :: 0 <= i < j < |rows| ==> rows[i].0 != rows[j].0
  }

  /** Ordered as `ORDER BY created_at DESC` orders, NULL first. */
  predicate NewestFirstOrdered(rows: seq<(nat, Complaint)>)
  {
    forall i, j :: 0 <= i < j < |rows| ==> NoOlder(rows[i].1, rows[j].1)
  }

  /** Rows with increasing keys, once sorted by date, still hold each key
      once. */
  lemma SortedKeysDistinct(rows: seq<(nat, Complaint)>)
    requires KeysIncreasing(rows)
    ensures KeysOnce(SortBy(rows, NewestFirst))
  {
    var sorted := SortBy(rows, NewestFirst);
    assert Distinct(rows) by {
      forall i, j | 0 <= i < j < |rows| ensures rows[i] != rows[j] {
        assert rows[i].0 < rows[j].0;
      }
    }
    SortByKeepsDistinct(rows, NewestFirst);
    forall i, j | 0 <= i < j < |sorted| ensures sorted[i].0 != sorted[j].0 {
      SortByMembers(rows, NewestFirst, sorted[i]);
      SortByMembers(rows, NewestFirst, sorted[j]);
      var a :| 0 <= a < |rows| && rows[a] == sorted[i];
      var b :| 0 <= b < |rows| && rows[b] == sorted[j];
      assert a != b;
    }
  }

  /** The rows `user` may see: those without a timestamp first, then the
      rest newest first. */
  function Listing(st: Store, user: Claims): seq<(nat, Complaint)>
  {
    var rows := VisibleRows(RowsBetween(st.complaints, 0, st.nextId), user);
    RowsWhere(rows, Undated) + SortBy(RowsWhere(rows, Dated), NewestFirst)
  }

  /** A row is listed exactly when it is stored under an id handed out so
      far and the user may see it. */
  lemma ListingMembers(st: Store, user: Claims)
    ensures forall p :: p in Listing(st, user) <==>
      p.0 < st.nextId && p.0 in st.complaints && st.complaints[p.0] == p.1 && Visible(user, p.1)
  {
    var rows := VisibleRows(RowsBetween(st.complaints, 0, st.nextId), user);
    var dated := RowsWhere(rows, Dated);
    assert Listing(st, user) == RowsWhere(rows, Undated) + SortBy(dated, NewestFirst);
    forall p ensures p in Listing(st, user) <==> p in rows {
      SortByMembers(dated, NewestFirst, p);
    }
  }

  /** Sorting timestamped rows by `NewestFirst` puts later `created_at`
      first. */
  lemma NewestFirstOrder(rows: seq<(nat, Complaint)>)
    requires forall p :: p in rows ==> Dated(p)
    ensures NewestFirstOrdered(SortBy(rows, NewestFirst))
  {
    var r := SortBy(rows, NewestFirst);
    assert SortedBy(r, NewestFirst);
    forall i, j | 0 <= i < j < |r| ensures NoOlder(r[i].1, r[j].1) {
      SortByMembers(rows, NewestFirst, r[i]);
      SortByMembers(rows, NewestFirst, r[j]);
      assert NewestFirst(r[i]) <= NewestFirst(r[j]);
    }
  }

  /** The untimestamped rows followed by the sorted timestamped ones are in
      `created_at DESC` order and hold each key once. */
  lemma JoinedInOrder(u: seq<(nat, Complaint)>, s: seq<(nat, Complaint)>)
    requires forall k :: 0 <= k < |u| ==> Undated(u[k])
    requires KeysIncreasing(u)
    requires KeysOnce(s) && NewestFirstOrdered(s)
    requires forall a, b :: 0 <= a < |u| && 0 <= b < |s| ==> u[a].0 != s[b].0
    ensures KeysOnce(u + s) && NewestFirstOrdered(u + s)
  {
    var r := u + s;
    forall i, j | 0 <= i < j < |r| ensures r[i].0 != r[j].0 && NoOlder(r[i].1, r[j].1) {
      if j < |u| {
        assert r[i] == u[i] && r[j] == u[j];
      } else if i < |u| {
        assert r[i] == u[i] && r[j] == s[j - |u|];
      } else {
        assert r[i] == s[i - |u|] && r[j] == s[j - |u|];
      }
    }
  }

  /** Splitting rows with increasing keys by whether they carry a
      timestamp: both parts keep increasing keys, the parts share no key,
      and each holds only its own kind of row. */
  lemma PartsApart(rows: seq<(nat, Complaint)>)
    requires KeysIncreasing(rows)
    ensures KeysIncreasing(RowsWhere(rows, Undated)) && KeysIncreasing(RowsWhere(rows, Dated))
    ensures forall k :: 0 <= k < |RowsWhere(rows, Undated)| ==> Undated(RowsWhere(rows, Undated)[k])
    ensures forall p :: p in RowsWhere(rows, Dated) ==> Dated(p)
    ensures forall a, b :: 0 <= a < |RowsWhere(rows, Undated)| && 0 <= b < |RowsWhere(rows, Dated)| ==>
      RowsWhere(rows, Undated)[a].0 != RowsWhere(rows, Dated)[b].0
  {
    var u := RowsWhere(rows, Undated);
    var d := RowsWhere(rows, Dated);
    RowsWhereIncreasing(rows, Undated);
    RowsWhereIncreasing(rows, Dated);
    forall k | 0 <= k < |u| ensures Undated(u[k]) {
      assert u[k] in u;
    }
    forall a, b | 0 <= a < |u| && 0 <= b < |d| ensures u[a].0 != d[b].0 {
      assert u[a] in u && d[b] in d;
      if u[a].0 == d[b].0 {
        SameKeySameRow(rows, u[a], d[b]);
      }
    }
  }

  /** Rows lacking a timestamp, then the timestamped rows sorted newest
      first: in `created_at DESC` order and each key once. */
  lemma JoinSorted(u: seq<(nat, Complaint)>, d: seq<(nat, Complaint)>)
    requires KeysIncreasing(u) && KeysIncreasing(d)
    requires forall k :: 0 <= k < |u| ==> Undated(u[k])
    requires forall p :: p in d ==> Dated(p)
    requires forall a, b :: 0 <= a < |u| && 0 <= b < |d| ==> u[a].0 != d[b].0
    ensures KeysOnce(u + SortBy(d, NewestFirst)) && NewestFirstOrdered(u + SortBy(d, NewestFirst))
  {
    var s := SortBy(d, NewestFirst);
    SortedKeysDistinct(d);
    NewestFirstOrder(d);
    forall a, b | 0 <= a < |u| && 0 <= b < |s| ensures u[a].0 != s[b].0 {
      SortByMembers(d, NewestFirst, s[b]);
      var c :| 0 <= c < |d| && d[c] == s[b];
    }
    JoinedInOrder(u, s);
  }

  /** The listing's rows, in `created_at DESC` order and each key once. */
  lemma DescNullsFirst(rows: seq<(nat, Complaint)>)
    requires KeysIncreasing(rows)
    ensures KeysOnce(RowsWhere(rows, Undated) + SortBy(RowsWhere(rows, Dated), NewestFirst))
    ensures NewestFirstOrdered(RowsWhere(rows, Undated) + SortBy(RowsWhere(rows, Dated), NewestFirst))
  {
    var u := RowsWhere(rows, Undated);
    var d := RowsWhere(rows, Dated);
    PartsApart(rows);
    JoinSorted(u, d);
  }

  /** The listing is in `created_at DESC` order, NULL first, and holds each
      id once. */
  lemma ListingOrdered(st: Store, user: Claims)
    ensures KeysOnce(Listing(st, user)) && NewestFirstOrdered(Listing(st, user))
  {
    var scanned := RowsBetween(st.complaints, 0, st.nextId);
    var rows := VisibleRows(scanned, user);
    assert KeysIncreasing(scanned);
    assert KeysIncreasing(rows);
    assert Listing(st, user) == RowsWhere(rows, Undated) + SortBy(RowsWhere(rows, Dated), NewestFirst);
    DescNullsFirst(rows);
  }

  /** `GET /api/complaints`: the complaints the caller may see, newest
      first with rows lacking a timestamp ahead of the rest, each once. The
      scan runs over the serial ids handed out so far, which cover every
      stored key (`KeysBelowNext`). */
  function ListComplaints(st: Store, header: Option<string>,
                          decode: string -> Option<Claims>): (r: Outcome<seq<(nat, Complaint)>>)
    ensures Authorize(header, [], decode).Err? ==> r == Err(Authorize(header, [], decode).failure)
    ensures r.Ok? <==> Authorize(header, [], decode).Ok?
    ensures r.Ok? ==>
      var user := Authorize(header, [], decode).value;
      forall p :: p in r.value ==>
        p.0 in st.complaints && st.complaints[p.0] == p.1 && Visible(user, p.1)
    ensures r.Ok? && KeysBelowNext(st) ==>
      var user := Authorize(header, [], decode).value;
      forall p :: p in r.value <==>
        p.0 in st.complaints && st.complaints[p.0] == p.1 && Visible(user, p.1)
    ensures r.Ok? ==>
      forall i, j :: 0 <= i < j < |r.value| ==> r.value[i].0 != r.value[j].0
    ensures r.Ok? ==>
      forall i, j :: 0 <= i < j < |r.value| ==> NoOlder(r.value[i].1, r.value[j].1)
  {
    match Authorize(header, [], decode)
    case Err(f) => Err(f)
    case Ok(user) =>
      ListingMembers(st, user);
      ListingOrdered(st, user);
      Ok(Listing(st, user))
  }

  function OldestFirst(e: HistoryEntry): int
  {
    e.createdAt
  }

  /** `GET /api/complaints/:id`: the row and its history, oldest entry
      first. Any signed-in user may read any complaint. */
  function GetComplaint(st: Store, header: Option<string>, decode: string -> Option<Claims>,
                        id: nat): (r: Outcome<(Complaint, seq<HistoryEntry>)>)
    ensures Authorize(header, [], decode).Err? ==> r == Err(Authorize(header, [], decode).failure)
    ensures Authorize(header, [], decode).Ok? && id !in st.complaints ==> r == Err(NotFound)
    ensures r.Ok? <==> Authorize(header, [], decode).Ok? && id in st.complaints
    ensures r.Ok? ==> r.value.0 == st.complaints[id]
    ensures r.Ok? ==> multiset(r.value.1) == multiset(Trail(st.history, id))
    ensures r.Ok? ==>
      forall i, j :: 0 <= i < j < |r.value.1| ==> r.value.1[i].createdAt <= r.value.1[j].createdAt
  {
    match Authorize(header, [], decode)
    case Err(f) => Err(f)
    case Ok(_) =>
      if id !in st.complaints then Err(NotFound)
      else Ok((st.complaints[id], SortBy(Trail(st.history, id), OldestFirst)))
  }

  /** When every history entry is stamped later than the one before, the
      history GET returns is the complaint's trail in insertion order; under
      the store invariant it opens with the creation entry and ends at the
      complaint's current status. */
  lemma GetShowsTrail(st: Store, header: Option<string>, decode: string -> Option<Claims>, id: nat)
    requires Chronological(st.history)
    ensures GetComplaint(st, header, decode, id).Ok? ==>
      GetComplaint(st, header, decode, id).value.1 == Trail(st.history, id)
    ensures GetComplaint(st, header, decode, id).Ok? && Valid(st) ==>
      Reconstructs(GetComplaint(st, header, decode, id).value.1, GetComplaint(st, header, decode, id).value.0.status)
  {
    if GetComplaint(st, header, decode, id).Ok? {
      var t := Trail(st.history, id);
      assert GetComplaint(st, header, decode, id).value == (st.complaints[id], SortBy(t, OldestFirst));
      TrailChronological(st.history, id);
      assert StrictlySortedBy(t, OldestFirst) by {
        forall i, j | 0 <= i < j < |t| ensures OldestFirst(t[i]) < OldestFirst(t[j]) {
          assert t[i].createdAt < t[j].createdAt;
        }
      }
      SortByStrictlySorted(t, OldestFirst);
    }
  }
}
